=== FILE: README.md ===
# Restaurant order saga — a Dafny model

This project models the core of a restaurant back end made of three
message-driven services that hand an order along a saga over a message
broker:

- **orders** creates an order row with the RECEIVED display string and asks the
  kitchen to take it. It stores every status update it is sent, translating
  the status *key* through its own `OrderStatus` enum into a display string.
- **kitchen** draws a random recipe and publishes three messages: an order
  update to REQUESTING_INGREDIENTS, a reservation request to the warehouse,
  and the first "verification" on its retry exchange. Every ten seconds the
  verification comes back from the retry queue and re-reads the order. A
  stored "ingredients delivered" string is moved on to PREPARING, and a
  "preparing" string to COMPLETED.
- **warehouse** classifies each requested line against stock. It buys from
  the farmers' market when stock is short. It then either delivers, which
  publishes DELIVERED_INGREDIENTS and decrements stock, or reports waiting,
  which publishes WAITING_FOR_INGREDIENTS and re-queues the request on its own
  retry exchange.

Everything a service meets outside itself becomes a parameter:

- a randomly drawn recipe index;
- the market's HTTP answer for each line;
- the warehouse's and the orders service's RPC answers, each of which may
  time out (`Rpc.TimedOut`).

Databases are immutable values (`Warehouse`, `Kitchen`, `Orders`). A handler
returns what it did: the new store, the argument of its one `sendResponse`
call, its publishes, its RPC requests, and how many times it acknowledged the
delivery.

Modules: `Base` (JSON, truthiness, lower-casing), `Broker` (sendResponse,
retry queues, the consume/ack wrapper), `KitchenStatus` and `OrdersStatus`
(the two enums), `Dto` (the class-validator DTOs), `WarehouseData` and
`Market`, `WarehouseService`, `WarehouseController`, `KitchenService`,
`KitchenController`, `OrdersService`, `OrdersController`, and `Saga` (facts
that span services).

What the proofs show about the code as written:

- **Stock can go negative**, in two ways:
  - an ingredient requested twice is checked twice against the same stock
    (`WarehouseService.RepeatedLineOverdraws`);
  - a short ingredient for which the market sells nothing adds no summary
    entry, so it does not stop `allAvailable`
    (`WarehouseService.UnboughtShortageOverdraws`).
  For requests that name each ingredient once, `WarehouseService.RequestAnswer`
  states the answer exactly: `true` when every line has no stock row, enough
  stock, or a market that sold nothing for it.
- **The warehouse get-by-id handler can acknowledge twice.** With a truthy
  body and a falsy `id` it acknowledges the delivery itself, and the consume
  loop acknowledges it again (`WarehouseController.MissingIdNotAnswered`).

Three places where the code evidently does not do what it means are listed
under "## Findings", each with a member for the code as written and a
corrected definition.

## Model

| member | source | states |
|---|---|---|
| Broker.SendResponse | backend/microservices/warehouse/src/common/message-broken/responses.ts:4-17 | at most one message; one exactly when `replyTo` is present and non-empty, on that queue with the delivery's correlation id and the given body |
| Broker.ReplyReachesCaller | backend/microservices/warehouse/src/common/message-broken/responses.ts:7-14 | a reply sent for a request with `replyTo` and a correlation id is what the waiting caller receives; a caller with another correlation id receives nothing |
| Broker.Expire | backend/microservices/warehouse/src/module/warehouse.controller.ts:69-86 | a retry queue takes a publish only under its bound exchange and key, and dead-letters the same body to its dead-letter exchange and key |
| Broker.Settle | backend/microservices/warehouse/src/module/warehouse.controller.ts:89-107 | an unknown key is acknowledged once and nothing else happens; the delivery stays unacknowledged exactly when the handler threw; a handler that did not acknowledge is acknowledged once, one that did is acknowledged twice; at most one reply is sent, exactly when the handler responded and the message names a non-empty reply queue, carrying the handler's body and the message's correlation id; the store and the published messages are the handler's |
| Base.Lower | backend/microservices/warehouse/src/module/market.service.ts:11 | lower-casing keeps the length, turns each upper-case ASCII letter into its lower-case letter, and leaves every other character alone |
| Base.LowerIdempotent | backend/microservices/warehouse/src/module/market.service.ts:11 | lower-casing a lower-cased name changes nothing |
| Base.LowerAppend | backend/microservices/warehouse/src/module/market.service.ts:11 | lower-casing works character by character: it distributes over concatenation |
| KitchenStatus.Successor | backend/microservices/kitchen/src/module/constants/order-status.ts:1-8 | every kitchen state but COMPLETED has a next state, the one declared right after it |
| KitchenStatus.ValuesDistinct | backend/microservices/kitchen/src/module/constants/order-status.ts:2-7 | distinct kitchen states have distinct display strings |
| OrdersStatus.LookupKey | backend/microservices/orders/src/module/orders.service.ts:133 | `OrderStatus[key]` is a display string exactly for the enum's keys; a non-string exactly for inherited object properties; undefined otherwise |
| OrdersStatus.Keys | backend/microservices/orders/src/module/constants/order-status.ts:1-9 | seven keys, including SELECTING_RECIPE and READY_FOR_DELIVERY, and no DELIVERED_INGREDIENTS key, so that key looks up as undefined |
| OrdersStatus.ValuesDistinct | backend/microservices/orders/src/module/constants/order-status.ts:2-8 | distinct orders states have distinct display strings |
| Dto.ValidateIngredientsRequest | backend/microservices/warehouse/src/common/middlewares/validate-dto.ts:4-19 | a null body throws; otherwise there is data exactly when there are no errors, and exactly when the body meets the DTO's rules, with the fields read from the body |
| Dto.LineRoundTrip | backend/microservices/warehouse/src/module/dto/ingredients-request.dto.ts:4-11 | a line's JSON validates exactly when its quantity is at least 1, and then reads back as the same line |
| Dto.IngredientsRequestRoundTrip | backend/microservices/warehouse/src/module/dto/ingredients-request.dto.ts:13-24 | a reservation body validates back to the same request exactly when every quantity is at least 1; empty lists and repeated ids pass |
| Dto.ValidateUpdateOrder | backend/microservices/orders/src/module/dto/update-order.dto.ts:3-14 | a null body throws; otherwise there is data exactly when there are no errors, and exactly when `id` and `recipeId` are whole numbers and `status` is a string, any string |
| Dto.OrderUpdateRoundTrip | backend/microservices/orders/src/module/dto/update-order.dto.ts:3-14 | an update body validates exactly when its `id` and `recipeId` are whole numbers (a null recipe id is rejected), and then yields those values and the status unchanged |
| WarehouseData.AddStock | backend/microservices/warehouse/src/module/warehouse.service.ts:120-129 | increments only the named ingredient's stock row, and is a no-op when it has none |
| Market.Buy | backend/microservices/warehouse/src/module/market.service.ts:9-47 | one query for the lower-cased name; the amount bought is `quantitySold` when positive and 0 otherwise; a purchase row with the next id is appended exactly when something was bought |
| Market.NewestFirst | backend/microservices/warehouse/src/module/market.service.ts:63-65 | the purchase log reversed: same length, newest purchase first |
| Market.Fetch | backend/microservices/warehouse/src/module/market.service.ts:56-66 | a negative skip `(page-1)*limit` is a query error and nothing else is; with no limit or a non-negative one, the page is the log newest first from the skip on, up to `limit` rows; a negative limit takes up to `-limit` rows from the oldest end after the skip and lists them newest first |
| Market.NegativeLimitTakesOldest | backend/microservices/warehouse/src/module/market.service.ts:60-66 | on the first page a limit of `-n` answers the `n` oldest purchases, newest of them first |
| Market.FetchNewestFirst | backend/microservices/warehouse/src/module/market.service.ts:60-66 | a page lists purchases in strictly decreasing id order |
| Market.Annotate | backend/microservices/warehouse/src/module/market.service.ts:68-95 | lists, in page order, exactly the purchases whose ingredient still exists, each with that ingredient's id, name and image |
| Market.GetMarketHistory | backend/microservices/warehouse/src/module/market.service.ts:50-116 | 400 exactly when the skip is negative (a negative limit alone is answered); otherwise 200 listing, in page order, exactly the fetched purchases whose ingredient still exists, each with that ingredient's id, name and image, with `total` the number of purchases and `page`/`perPage` echoed |
| WarehouseService.GetIngredients | backend/microservices/warehouse/src/module/warehouse.service.ts:16-39 | 200 with exactly the stored ingredients |
| WarehouseService.GetIngredientById | backend/microservices/warehouse/src/module/warehouse.service.ts:42-71 | 404 exactly for an unknown id; otherwise 200 with that ingredient's id, name and image |
| WarehouseService.Classify | backend/microservices/warehouse/src/module/warehouse.service.ts:96-146 | one line of the loop only raises stock, adds at most one summary entry and one market query, and touches no other ingredient |
| WarehouseService.ClassifyCases | backend/microservices/warehouse/src/module/warehouse.service.ts:96-146 | no stock row: nothing happens; sufficient stock: AVAILABLE with no market call; short stock: one market call, and if something is bought then stock rises by that amount and the entry is NOT_AVAILABLE, else no entry |
| WarehouseService.ClassifyIntended | backend/microservices/warehouse/src/module/warehouse.service.ts:118-145 | as the loop body, except that after a purchase the line is AVAILABLE exactly when the restocked quantity covers it |
| WarehouseService.PurchaseNotCounted | backend/microservices/warehouse/src/module/warehouse.service.ts:118-145 | a purchase that covers the shortfall leaves the line NOT_AVAILABLE as written, and AVAILABLE with the corrected re-check |
| WarehouseService.ScanFrom | backend/microservices/warehouse/src/module/warehouse.service.ts:80-147 | the loop stops at an unknown ingredient exactly when one remains; stock only grows and the summary and query log only extend |
| WarehouseService.TakeStock | backend/microservices/warehouse/src/module/warehouse.service.ts:162-173 | each ingredient's stock drops by the total quantity requested of it, with no lower bound |
| WarehouseService.Reserve | backend/microservices/warehouse/src/module/warehouse.service.ts:74-201 | the classification loop only raises stock and leaves every other column alone, and the answer is never a validation failure |
| WarehouseService.RequestReply | backend/microservices/warehouse/src/module/warehouse.service.ts:74-201 | 404 exactly when some requested ingredient is unknown, with nothing published; otherwise 200 with `data` equal to the summary's allAvailable |
| WarehouseService.ScanVerdict | backend/microservices/warehouse/src/module/warehouse.service.ts:80-151 | with no ingredient named twice, the loop's summary is all AVAILABLE exactly when every line has no stock row, enough stock, or a market that sold nothing for it |
| WarehouseService.RequestAnswer | backend/microservices/warehouse/src/module/warehouse.service.ts:74-192 | for a request whose ingredients all exist and are named once, the answer is 200 with `true` exactly when every line has no stock row, enough stock before the request, or a market that sold nothing for it |
| WarehouseService.RequestPublishes | backend/microservices/warehouse/src/module/warehouse.service.ts:149-185 | on success exactly one order update: DELIVERED_INGREDIENTS with stock decremented, or WAITING_FOR_INGREDIENTS with stock as the loop left it |
| WarehouseService.ScanSufficient | backend/microservices/warehouse/src/module/warehouse.service.ts:96-106 | lines all in sufficient stock make no market call, no change and only AVAILABLE entries |
| WarehouseService.AllInStock | backend/microservices/warehouse/src/module/warehouse.service.ts:74-192 | a request fully in stock is answered `true` with no market call, publishes DELIVERED_INGREDIENTS, and takes exactly the requested totals from stock |
| WarehouseService.ScanFrame | backend/microservices/warehouse/src/module/warehouse.service.ts:80-147 | the loop leaves an ingredient no remaining line names untouched |
| WarehouseService.ScanShortLine | backend/microservices/warehouse/src/module/warehouse.service.ts:113-145 | a short line the market sells for ends the loop with a NOT_AVAILABLE entry and its stock raised by the amount bought |
| WarehouseService.ShortageWaits | backend/microservices/warehouse/src/module/warehouse.service.ts:113-185 | with distinct ingredients, one short line the market sells for makes the request wait (`false`, WAITING_FOR_INGREDIENTS), and the amount bought stays in stock |
| WarehouseService.RepeatedLineOverdraws | backend/microservices/warehouse/src/module/warehouse.service.ts:96-106 | a line repeated against stock enough for one copy is answered `true`, and stock goes negative |
| WarehouseService.UnboughtShortageOverdraws | backend/microservices/warehouse/src/module/warehouse.service.ts:108-173 | a short line the market sells nothing for is still delivered, and its stock drops below what was there |
| WarehouseController.HandlerTable | backend/microservices/warehouse/src/module/warehouse.controller.ts:27-55 | five routing keys; the request and its retry share one handler; the queue is bound under exactly those keys |
| WarehouseController.UnregisteredKeyAcked | backend/microservices/warehouse/src/module/warehouse.controller.ts:89-107 | a key with no handler changes nothing, sends nothing, and is acknowledged once |
| WarehouseController.ValidationGate | backend/microservices/warehouse/src/module/warehouse.controller.ts:136-151 | a reservation body that fails validation is answered with its errors; the service does not run and nothing is published |
| WarehouseController.RetryRule | backend/microservices/warehouse/src/module/warehouse.controller.ts:153-170 | after the service runs a reply is always sent; the request is re-published to the retry exchange exactly when the answer is `false` |
| WarehouseController.RetryReentersSameHandler | backend/microservices/warehouse/src/module/warehouse.controller.ts:69-86 | a re-queued request comes back after 10 s to the same handler with a body that validates to the same request |
| WarehouseController.MissingIdNotAnswered | backend/microservices/warehouse/src/module/warehouse.controller.ts:116-129 | a get-by-id body with a falsy id gets no reply and is acknowledged twice; a falsy body gets no reply and one acknowledgement |
| KitchenService.GatherTimeout | backend/microservices/kitchen/src/module/kitchen.service.ts:205-229 | the ingredient loop fails exactly when some ingredient's RPC times out, and it stops at the first one that does |
| KitchenService.Gather | backend/microservices/kitchen/src/module/kitchen.service.ts:205-216 | one warehouse RPC per ingredient, in the recipe's order, for every ingredient unless a call times out |
| KitchenService.GatherFound | backend/microservices/kitchen/src/module/kitchen.service.ts:217-228 | kept ingredients carry the warehouse's name and image, keep the recipe's order and quantities, and number exactly those the warehouse answers for |
| KitchenService.GatherKeepsFound | backend/microservices/kitchen/src/module/kitchen.service.ts:217-224 | with no timeout, every line the warehouse answers for is kept |
| KitchenService.FindRecipe | backend/microservices/kitchen/src/module/kitchen.service.ts:182-184 | finds a recipe with that id exactly when one exists |
| KitchenService.GetRecipeById | backend/microservices/kitchen/src/module/kitchen.service.ts:179-246 | 404 exactly for an unknown id, with no RPC; 400 exactly when a lookup times out; otherwise the recipe's own fields with the kept ingredients |
| KitchenService.ListFrom | backend/microservices/kitchen/src/module/kitchen.service.ts:108-176 | the recipe loop fails exactly when some recipe's lookup times out; otherwise one detail per recipe, in order |
| KitchenService.GetRecipes | backend/microservices/kitchen/src/module/kitchen.service.ts:108-176 | 400 exactly when some lookup times out; otherwise one entry per recipe |
| KitchenService.RecipesAgreeWithById | backend/microservices/kitchen/src/module/kitchen.service.ts:108-246 | with unique ids, each listed recipe is exactly what asking for it by id gives |
| KitchenService.NewOrder | backend/microservices/kitchen/src/module/kitchen.service.ts:13-105 | 400 exactly when there are no recipes; otherwise the drawn recipe, and three publishes in order: REQUESTING_INGREDIENTS update, reservation request, first verification |
| KitchenService.IntakeShowsRecipe | backend/microservices/kitchen/src/module/kitchen.service.ts:54-95 | the intake reply shows the drawn recipe, or nothing exactly when one of its lookups timed out |
| KitchenService.IntakeMessagesValidate | backend/microservices/kitchen/src/module/kitchen.service.ts:57-75 | the published order update and reservation request validate, at their consumers, to the drawn recipe and its lines when quantities are at least 1 |
| KitchenService.IntakeSucceeds | backend/microservices/kitchen/src/module/kitchen.service.ts:20-34 | an index drawn below the row count always finds a recipe |
| KitchenService.CheckAndAdvance | backend/microservices/kitchen/src/module/kitchen.service.ts:248-336 | 404 exactly when the order RPC resolves empty; 400 on a timeout or failed reply; a stored delivered or preparing string publishes its successor key; any other is echoed with nothing published |
| KitchenService.AdvanceMoves | backend/microservices/kitchen/src/module/kitchen.service.ts:271-313 | the delivered string moves to PREPARING and the preparing string to COMPLETED |
| KitchenController.HandlerTable | backend/microservices/kitchen/src/module/kitchen.controller.ts:20-47 | four routing keys, and the queue is bound under exactly those keys |
| KitchenController.UnregisteredKeyAcked | backend/microservices/kitchen/src/module/kitchen.controller.ts:81-99 | a key with no handler sends nothing and is acknowledged once |
| KitchenController.MissingOrderIdIgnored | backend/microservices/kitchen/src/module/kitchen.controller.ts:102-143 | a new order or verification without a truthy orderId does nothing; a null verification body throws and is never acknowledged |
| KitchenController.VerificationRound | backend/microservices/kitchen/src/module/kitchen.controller.ts:130-159 | one verification round re-reads the order, publishes the advance if any, re-schedules unless the check failed or answered COMPLETED, and always replies |
| KitchenController.RetryReentersVerification | backend/microservices/kitchen/src/module/kitchen.controller.ts:61-78 | a verification waits 10 s and comes back to the verification handler with the same orderId |
| OrdersService.CreateNewOrder | backend/microservices/orders/src/module/orders.service.ts:13-54 | inserts one RECEIVED row under the next id, leaves the others, and asks the kitchen; 400 exactly on a kitchen timeout, 200 otherwise |
| OrdersService.CreateNewOrderIntended | backend/microservices/orders/tests/orders.service.test.ts:47-113 | the same row and kitchen request; 200 with the kitchen's reply exactly when the kitchen replied with a truthy `success`, 400 otherwise |
| OrdersService.RefusedOrderReportedCreated | backend/microservices/orders/src/module/orders.service.ts:25-45 | a kitchen reply `{success: false}` is answered 200 as written and 400 by the corrected definition |
| OrdersService.RowsBetween | backend/microservices/orders/src/module/orders.service.ts:60 | lists exactly the rows whose ids are in range, in increasing id order |
| OrdersService.GetOrders | backend/microservices/orders/src/module/orders.service.ts:57-76 | 200 with exactly the stored rows, in id order |
| OrdersService.GetOrderById | backend/microservices/orders/src/module/orders.service.ts:79-108 | 404 exactly for an unknown id; otherwise 200 with that row |
| OrdersService.UpdateWith | backend/microservices/orders/src/module/orders.service.ts:111-151 | for a given value of `OrderStatus[status]`: 404 for an unknown id; 400 for a non-string; otherwise only that row changes, taking the recipe id and a string value, or keeping its status for `undefined` |
| OrdersService.ApplyUpdateIntended | backend/microservices/kitchen/src/module/constants/order-status.ts:5 | with DELIVERED_INGREDIENTS mapped to the kitchen's "Ingredientes entregados a cocina", that update stores this string; every other key updates as written |
| OrdersService.ApplyUpdate | backend/microservices/orders/src/module/orders.service.ts:111-151 | 404 for an unknown id; 400 for an inherited key; otherwise only that row changes: the recipe id is stored, a known key's display string is stored, an unknown key keeps the status |
| OrdersService.UpdateIdempotent | backend/microservices/orders/src/module/orders.service.ts:129-135 | applying the same update twice leaves the table as applying it once |
| OrdersService.UpdateFrame | backend/microservices/orders/src/module/orders.service.ts:129-135 | an update touches no row but the one it names |
| OrdersService.DeliveredKeepsStatus | backend/microservices/orders/src/module/orders.service.ts:129-135 | a DELIVERED_INGREDIENTS update stores the recipe id and keeps the status as it was |
| OrdersService.CreatedReceived | backend/microservices/orders/src/module/orders.service.ts:16-20 | a created order starts with "Recibida y enviada a cocina" |
| OrdersController.HandlerTable | backend/microservices/orders/src/module/orders.controller.ts:19-50 | four routing keys, and the queue is bound under exactly those keys |
| OrdersController.UnregisteredKeyAcked | backend/microservices/orders/src/module/orders.controller.ts:52-69 | a key with no handler changes nothing, sends nothing, and is acknowledged once |
| OrdersController.CreateAnswersAnyKitchenReply | backend/microservices/orders/src/module/orders.controller.ts:73-75 | a create message whose kitchen call resolves with any reply, `{success: false}` included, is answered 200 with the new RECEIVED row and that reply, stores the row, and is acknowledged once |
| OrdersController.InvalidUpdateRejected | backend/microservices/orders/src/module/orders.controller.ts:79-86 | an update body that fails validation is answered with its errors, and the table is unchanged |
| OrdersController.MissingIdRejected | backend/microservices/orders/src/module/orders.controller.ts:108-116 | a get-by-id body without a truthy id is answered "Invalid id" with no lookup |
| OrdersController.OneResponsePerMessage | backend/microservices/orders/src/module/orders.controller.ts:52-120 | every handled message gets one reply and one acknowledgement and publishes nothing, except a null body for update or get-by-id, which throws: no reply, no acknowledgement |
| OrdersController.ConsumeKeepsStatusesKnown | backend/microservices/orders/src/module/orders.controller.ts:52-69 | whatever message arrives, every stored status stays a display string of the orders enum |
| Saga.SharedDisplayStrings | backend/microservices/kitchen/src/module/constants/order-status.ts:1-8 | the two enums share the RECEIVED, REQUESTING_INGREDIENTS and PREPARING strings; the kitchen's delivered string is no orders string |
| Saga.CompletedIsNoDisplayString | backend/microservices/kitchen/src/module/kitchen.controller.ts:149 | no stored status is the literal "COMPLETED" |
| Saga.PreparingIsNoDisplayString | backend/microservices/orders/src/module/constants/order-status.ts:1-9 | no stored status is the literal "PREPARING" either, so an echoed status is never the key the kitchen publishes for preparing |
| Saga.StoredOrderNeverPrepared | backend/microservices/kitchen/src/module/kitchen.service.ts:271-327 | for a stored order the kitchen publishes only the PREPARING-to-COMPLETED move, and never PREPARING |
| Saga.VerificationStopsOnlyAtCompletion | backend/microservices/kitchen/src/module/kitchen.controller.ts:149-156 | for a stored order, verification is re-scheduled exactly when the order is not in the preparing state |
| Saga.PreparingKey | backend/microservices/orders/src/module/constants/order-status.ts:6 | PREPARING looks up as the display string both enums give it |
| Saga.DeliveredGetsPrepared | backend/microservices/kitchen/src/module/kitchen.service.ts:271-327 | with the corrected enum, the kitchen's check after the warehouse's delivered update publishes PREPARING and schedules another check |
| Saga.PreparingGetsCompleted | backend/microservices/kitchen/src/module/kitchen.service.ts:271-327 | once PREPARING is stored, the next check publishes COMPLETED and schedules none |
| Saga.IntendedSagaCompletes | backend/microservices/kitchen/src/module/kitchen.service.ts:271-327 | with the corrected enum, the delivered update followed by the kitchen's PREPARING leads the next check to COMPLETED |
| Saga.WaitingKey | backend/microservices/orders/src/module/constants/order-status.ts:5 | WAITING_FOR_INGREDIENTS looks up as "Esperando ingredientes" |
| Saga.WarehouseUpdateValidates | backend/microservices/warehouse/src/module/warehouse.service.ts:155-180 | the warehouse's order updates pass the orders validation with the request's ids and status key |
| Saga.WaitingUpdateApplied | backend/microservices/orders/src/module/orders.service.ts:129-135 | the warehouse's waiting update stores "Esperando ingredientes" and the recipe id |
| Saga.DeliveredUpdateApplied | backend/microservices/orders/src/module/orders.service.ts:129-135 | the warehouse's delivered update stores the recipe id and leaves the status |
| Saga.KitchenRequestAccepted | backend/microservices/kitchen/src/module/kitchen.service.ts:64-75 | the kitchen's reservation request is accepted exactly when every quantity is at least 1, and reads back as the recipe's lines |
| Saga.WarehouseLookupMatchesConsumer | backend/microservices/warehouse/src/module/warehouse.controller.ts:116-129 | the warehouse answers every non-zero id with getIngredientById and nothing for id 0 |
| Saga.WarehouseFound | backend/microservices/warehouse/src/module/warehouse.service.ts:42-71 | the warehouse answers for an id exactly when it is non-zero and known, with that ingredient's name and image |
| Saga.ShownRecipeHasNoZeroId | backend/microservices/kitchen/src/module/kitchen.service.ts:205-229 | a recipe shown against a warehouse has no ingredient id 0 |
| Saga.RecipeShownFromWarehouse | backend/microservices/kitchen/src/module/kitchen.service.ts:205-237 | a recipe shown against a warehouse lists exactly its lines whose ingredient the warehouse has, with the warehouse's names and images |

## Left out

- Broker connections, channel set-up and `publishAndWaitForResponse` itself are not modelled. An RPC is its answer, given as a parameter (`Rpc`): a reply, an empty resolution, or a timeout.
- Correlation ids from `Date.now()`, the 3-second sleep in the catch of `buyIngredientUntilAvailable` (`market.service.ts:43`), and log output are not modelled. Human-readable `message` strings in replies are not modelled either.
- Concurrency is not modelled. Deliveries are handled one at a time, so interleavings of concurrent reservations on the same stock are not explored.
- The market's HTTP call (axios) is a parameter (`MarketReply`). Its URL and its headers are not modelled.
- Base.Lower: maps ASCII letters only. JavaScript's full Unicode case mapping is not modelled.
- Database failures other than the two modelled ones (`Fetch`'s negative skip and a non-integer id) are left out. The other services' catch-all 400 paths are unreachable in the model.
- `getMarketHistory` orders by `createdAt`; the model orders by insertion order of the purchase log.
- The pagination DTO file is not part of this model. Its rules are modelled as optional whole-number `page` and `limit` fields, checked by `WarehouseController.HandleMarketHistory`.
- The only caller of the market-history route, the API gateway, forwards the URL's query object (`backend/api-gateway/src/modules/warehouse/warehouse.routes.ts:11-13, 29`), so `page` and `limit` arrive as strings. `PageFieldOk` rejects strings, so the model answers every such request with validation errors. Any string-to-number conversion the DTO may perform is not modelled.
- JSON numbers are exact reals (`JNum(n: real)`), not IEEE doubles. A literal such as `1e309` parses to Infinity in the source, which `IsInt` rejects; the model's `IsWhole` accepts it. Integers beyond 2^53 are rounded by the source (`9007199254740993` becomes `9007199254740992`) and not by the model.
- The orders service's own `validateDto` file is not part of this model. It is assumed to behave like the warehouse's.
- `prisma.order.findMany()` and `prisma.ingredient.findMany()` give no ordering guarantee. `OrdersService.GetOrders` returns rows in id order, and `WarehouseService.GetIngredients` returns the set of stored ingredients, so the order of the source's array is not modelled.
- The recipe a kitchen draws is an index parameter standing for `Math.floor(Math.random() * count)`. The 404 branch of `newOrder` is reachable in the model only with an index at or beyond the row count.
- `JSON.parse` failures on message bodies are not modelled. A body that is not JSON makes the consume callback throw before any handler runs.
- class-validator's handling of extra properties is not modelled: the validated DTOs keep only the declared fields.
- Timestamps (`createdAt`, `updatedAt`) and the ingredient and recipe columns not read by the core are not modelled.
- The API gateway, authentication, Socket.io notifications and the front end are outside the core.
- `KitchenService.GetRecipes`: its contract states the failure condition and the count only. The content of each entry is stated by `KitchenService.ListFrom` and `KitchenService.RecipesAgreeWithById`.
- `KitchenService.Gather`: its own contract states only the RPC requests. Timeouts, the kept ingredients and the count are stated by `KitchenService.GatherTimeout`, `KitchenService.GatherFound` and `KitchenService.GatherKeepsFound`.
- `WarehouseService.Reserve`: its own contract is light. Its behaviour is stated by `WarehouseService.RequestReply`, `WarehouseService.RequestAnswer`, `WarehouseService.RequestPublishes` and the lemmas after them. `WarehouseService.RequestAnswer` covers requests that name each ingredient once; repeated ingredients are covered only by `WarehouseService.RepeatedLineOverdraws`.

## Findings

| source | as written | input that shows it | evidently intended | confidence | as-written member | corrected member |
|---|---|---|---|---|---|---|
| backend/microservices/orders/src/module/orders.service.ts:36-45 | `createNewOrder` answers 200 with the kitchen's reply whatever that reply says | the kitchen replies `{success: false}` | 400 when the kitchen does not take the order, as the unit test at `orders.service.test.ts:86-113` expects | high; not executed | OrdersService.RefusedOrderReportedCreated | OrdersService.CreateNewOrderIntended |
| backend/microservices/orders/src/module/constants/order-status.ts:1-9 | the orders enum has no DELIVERED_INGREDIENTS key, so the warehouse's delivered update keeps the old status and the kitchen never sees its "delivered" string, never publishes PREPARING, and re-schedules its check forever | any order the warehouse serves | DELIVERED_INGREDIENTS mapped to the kitchen's "Ingredientes entregados a cocina", so the kitchen moves the order to PREPARING and then COMPLETED and stops checking | medium; not executed | Saga.StoredOrderNeverPrepared | Saga.IntendedSagaCompletes |
| backend/microservices/warehouse/src/module/warehouse.service.ts:131-145 | after a purchase the re-check compares the quantity read before the purchase, so a purchase never makes a line AVAILABLE | stock 2, requested 5, market sells 3 | the line is AVAILABLE when the restocked quantity covers it, as the comment before the re-check says | high; not executed | WarehouseService.PurchaseNotCounted | WarehouseService.ClassifyIntended |

The services and their consumers model the code as written throughout, and
the facts above describe that behaviour. The corrected definitions
(`OrdersService.CreateNewOrderIntended`, `OrdersService.ApplyUpdateIntended`,
`WarehouseService.ClassifyIntended`) stand beside them with their own lemmas.

=== FILE: base.dfy ===
/** Values shared by every service of the model: optional values, the JSON
    documents that travel in message bodies, JavaScript truthiness and the
    lower-casing the market client applies to ingredient names. */
module Base {

  datatype Option<+T> = None | Some(value: T) {
    /** `x ?? default` */
    function GetOr(default: T): T {
      if Some? then value else default
    }
  }

  /** A document as `JSON.parse` yields it. JSON has no NaN and no
      infinities, so every number is a finite real. */
  datatype Json =
    | JNull
    | JBool(b: bool)
    | JNum(n: real)
    | JStr(s: string)
    | JArr(items: seq<Json>)
    | JObj(fields: map<string, Json>)

  /** JavaScript truthiness; `None` stands for `undefined`. */
  predicate Truthy(v: Option<Json>) {
    match v
    case None => false
    case Some(JNull) => false
    case Some(JBool(b)) => b
    case Some(JNum(n)) => n != 0.0
    case Some(JStr(s)) => s != ""
    case Some(_) => true
  }

  /** Property access `j.key`: undefined unless `j` is an object that has `key`. */
  function Field(j: Json, key: string): Option<Json> {
    if j.JObj? && key in j.fields then Some(j.fields[key]) else None
  }

  /** A present number with no decimal places: what class-validator's
      `IsNumber({maxDecimalPlaces: 0, allowInfinity: false, allowNaN: false})`
      and `IsInt()` accept once the value is a finite JSON number. */
  predicate IsWhole(v: Option<Json>) {
    v.Some? && v.value.JNum? && v.value.n.Floor as real == v.value.n
  }

  /** The integer a whole number denotes. */
  function WholeValue(v: Option<Json>): int
    requires IsWhole(v)
  {
    v.value.n.Floor
  }

  /** An integer as a JSON number. */
  function Num(i: int): (j: Json)
    ensures IsWhole(Some(j)) && WholeValue(Some(j)) == i
  {
    JNum(i as real)
  }

  /** `String.prototype.toLowerCase` on one character; only the ASCII
      letters are mapped. */
  function LowerChar(c: char): char {
    if 'A' <= c <= 'Z' then (c as int + 32) as char else c
  }

  predicate IsUpper(c: char) {
    'A' <= c <= 'Z'
  }

  /** `String.prototype.toLowerCase`, character by character: an upper-case
      ASCII letter becomes its lower-case letter, 32 code points on, and
      every other character stays. */
  function Lower(s: string): (r: string)
    ensures |r| == |s|
    ensures forall i :: 0 <= i < |s| ==> !IsUpper(r[i])
    ensures forall i :: 0 <= i < |s| && IsUpper(s[i]) ==> r[i] == (s[i] as int + 32) as char
    ensures forall i :: 0 <= i < |s| && !IsUpper(s[i]) ==> r[i] == s[i]
  {
    if s == [] then [] else [LowerChar(s[0])] + Lower(s[1..])
  }

  /** Lower-casing twice is lower-casing once. */
  lemma LowerIdempotent(s: string)
    ensures Lower(Lower(s)) == Lower(s)
  {
  }

  /** Lower-casing distributes over concatenation. */
  lemma {:induction false} LowerAppend(a: string, b: string)
    ensures Lower(a + b) == Lower(a) + Lower(b)
  {
    var l := Lower(a + b);
    forall i | 0 <= i < |a| + |b|
      ensures l[i] == (Lower(a) + Lower(b))[i]
    {
      if i < |a| { assert (a + b)[i] == a[i]; } else { assert (a + b)[i] == b[i - |a|]; }
    }
  }

  /** `a` is `b` with some elements left out, order kept. */
  predicate IsSubsequence<T(==)>(a: seq<T>, b: seq<T>) {
    if a == [] then true
    else if b == [] then false
    else if a[0] == b[0] then IsSubsequence(a[1..], b[1..])
    else IsSubsequence(a, b[1..])
  }
}

=== FILE: broker.dfy ===
/** The broker as the services see it: one-way publishes, the reply a
    consumer sends back to an RPC caller, the RPC caller's view of that
    reply, and the dead-letter retry queues that serve as the only timer. */
module Broker {
  import opened Base

  /** A one-way publish (`publishToExchange`): exchange, routing key, body. */
  datatype Envelope = Envelope(exchange: string, routingKey: string, body: Json)

  /** The properties of a delivered message that a reply needs. */
  datatype Properties = Properties(replyTo: Option<string>, correlationId: Option<string>)

  /** A delivered message: routing key, properties and the parsed body. */
  datatype Delivery = Delivery(routingKey: string, props: Properties, payload: Json)

  /** A message put straight on a queue by `channel.sendToQueue`. */
  datatype Sent<B> = Sent(queue: string, correlationId: Option<string>, body: B)

  /** What a service or handler answers. `Success` and `Failure` are the
      `{success, status, message, data?}` objects of the services;
      `Invalid` is the `{success: false, errors}` object of the handlers.
      The human-readable messages are not modelled. */
  datatype Reply<D> =
    | Success(status: int, data: D)
    | Failure(status: int)
    | Invalid(errors: seq<string>)

  /** An RPC as its caller sees it: a reply, a resolved value that is falsy
      (`if (!response)`), or the timeout that rejects the call. */
  datatype Rpc<R> = Replied(reply: R) | Empty | TimedOut

  /** `sendResponse`: send `body` to the delivery's `replyTo` queue with the
      delivery's correlation id, or send nothing when `replyTo` is falsy. */
  function SendResponse<B>(props: Properties, body: B): (sent: seq<Sent<B>>)
    ensures |sent| <= 1
    ensures |sent| == 1 <==> props.replyTo.Some? && props.replyTo.value != ""
    ensures forall m :: m in sent ==> m.queue == props.replyTo.value
    ensures forall m :: m in sent ==> m.correlationId == props.correlationId && m.body == body
  {
    if props.replyTo.Some? && props.replyTo.value != "" then
      [Sent(props.replyTo.value, props.correlationId, body)]
    else
      []
  }

  /** The RPC caller's consumer on its private reply queue: the body of the
      first message on `queue` whose correlation id is the caller's. */
  function Receive<B>(inbox: seq<Sent<B>>, queue: string, cid: string): Option<B> {
    if inbox == [] then None
    else if inbox[0].queue == queue && inbox[0].correlationId == Some(cid) then Some(inbox[0].body)
    else Receive(inbox[1..], queue, cid)
  }

  /** A reply sent for a request that carried `replyTo` and a correlation id
      is exactly what the waiting caller resolves with, and a caller waiting
      under any other correlation id does not pick it up. */
  lemma ReplyReachesCaller<B>(queue: string, cid: string, other: string, body: B)
    requires queue != "" && other != cid
    ensures Receive(SendResponse(Properties(Some(queue), Some(cid)), body), queue, cid) == Some(body)
    ensures Receive(SendResponse(Properties(Some(queue), Some(cid)), body), queue, other) == None
  {
    var sent := SendResponse(Properties(Some(queue), Some(cid)), body);
    assert sent == [Sent(queue, Some(cid), body)];
    assert sent[1..] == [];
  }

  /** A retry queue: bound to `exchange` under `bindingKey`, it holds each
      message for `ttlMs` and then dead-letters it to `deadLetterExchange`
      under `deadLetterRoutingKey`. */
  datatype RetryQueue = RetryQueue(
    name: string,
    exchange: string,
    bindingKey: string,
    deadLetterExchange: string,
    deadLetterRoutingKey: string,
    ttlMs: nat)

  /** What becomes of a publish once it has waited in the retry queue: a
      direct exchange only routes it there under the bound key, and expiry
      re-publishes the same body under the dead-letter address. */
  function Expire(q: RetryQueue, e: Envelope): (r: Option<Envelope>)
    ensures r.Some? <==> e.exchange == q.exchange && e.routingKey == q.bindingKey
    ensures r.Some? ==> r.value.exchange == q.deadLetterExchange
    ensures r.Some? ==> r.value.routingKey == q.deadLetterRoutingKey && r.value.body == e.body
  {
    if e.exchange == q.exchange && e.routingKey == q.bindingKey then
      Some(Envelope(q.deadLetterExchange, q.deadLetterRoutingKey, e.body))
    else
      None
  }

  /** What handling one delivery did: the new store, the argument of the one
      `sendResponse` call if there was one, the messages that call put on
      the reply queue, the one-way publishes, the RPC requests issued, and
      how many times the delivery was acknowledged. */
  datatype Outcome<S, D> = Outcome(
    store: S,
    responded: Option<Reply<D>>,
    sent: seq<Sent<Reply<D>>>,
    outbox: seq<Envelope>,
    rpc: seq<Envelope>,
    acks: nat)

  /** The same reply with its data re-wrapped. */
  function MapReply<D, E>(r: Reply<D>, f: D -> E): (m: Reply<E>)
    ensures m.Success? <==> r.Success?
    ensures m.Failure? <==> r.Failure?
    ensures m.Success? ==> m.status == r.status && m.data == f(r.data)
    ensures m.Failure? ==> m.status == r.status
    ensures m.Invalid? ==> m.errors == r.errors
  {
    match r
    case Success(status, data) => Success(status, f(data))
    case Failure(status) => Failure(status)
    case Invalid(errors) => Invalid(errors)
  }

  /** What a handler did before it returned or threw: the store, the
      argument of its `sendResponse` call if it made one, its publishes and
      RPC requests, and the acknowledgements it sent itself. */
  datatype Handled<S, D> = Handled(
    store: S,
    responded: Option<Reply<D>>,
    outbox: seq<Envelope>,
    rpc: seq<Envelope>,
    acks: nat,
    threw: bool)

  /** A handler that returned normally after doing `responded`, `outbox`. */
  function Returned<S, D>(store: S, responded: Option<Reply<D>>, outbox: seq<Envelope>): Handled<S, D> {
    Handled(store, responded, outbox, [], 0, false)
  }

  /** The consume callback around the routing-key lookup: with no handler
      registered for the key nothing runs; otherwise the handler runs. The
      delivery is acknowledged afterwards in both cases, unless the handler
      threw, in which case the callback's promise rejects before the
      acknowledgement. */
  function Settle<S, D>(props: Properties, store: S, handled: Option<Handled<S, D>>): (o: Outcome<S, D>)
    // a key with no handler: the delivery is acknowledged once, nothing else
    ensures handled.None? ==> o == Outcome(store, None, [], [], [], 1)
    // the delivery goes unacknowledged exactly when its handler threw
    ensures o.acks == 0 <==> handled.Some? && handled.value.threw
    // a handler that returned without acknowledging is acknowledged exactly once
    ensures handled.Some? && !handled.value.threw && handled.value.acks == 0 ==> o.acks == 1
    // ... and one that acknowledged once itself ends up acknowledged twice
    ensures handled.Some? && !handled.value.threw && handled.value.acks == 1 ==> o.acks == 2
    // at most one reply reaches the reply queue, and only the handler's own
    ensures |o.sent| <= 1
    ensures |o.sent| == 1 <==> o.responded.Some? && props.replyTo.Some? && props.replyTo.value != ""
    ensures o.sent != [] ==> o.sent[0].body == o.responded.value && o.sent[0].correlationId == props.correlationId
    // the wrapper adds no effect of its own: the store, the reply and the
    // messages are the handler's
    ensures handled.Some? ==>
      && o.store == handled.value.store && o.responded == handled.value.responded
      && o.outbox == handled.value.outbox && o.rpc == handled.value.rpc
  {
    match handled
    case None => Outcome(store, None, [], [], [], 1)
    case Some(h) =>
      Outcome(
        h.store,
        h.responded,
        if h.responded.Some? then SendResponse(props, h.responded.value) else [],
        h.outbox,
        h.rpc,
        if h.threw then 0 else h.acks + 1)
  }
}

=== FILE: dto.dfy ===
/** The payload shapes that cross service boundaries: the typed DTOs, the
    JSON bodies the publishers build, and the class-validator checks the
    consumers run (`IngredientsRequestDto`, `UpdateOrderDto`, through
    `validateDto`). */
module Dto {
  import opened Base

  /** One `{ingredientId, quantity}` entry of a reservation request. */
  datatype Line = Line(ingredientId: int, quantity: int)

  /** A validated `IngredientsRequestDto`. */
  datatype IngredientsRequest = IngredientsRequest(orderId: int, recipeId: int, ingredients: seq<Line>)

  /** An order as the orders service stores it and returns it from
      `orders.get.orderById`: the recipe is null until the kitchen picks
      one, and the status is a display string. */
  datatype Order = Order(id: int, recipeId: Option<int>, status: string)

  /** A validated `UpdateOrderDto`. */
  datatype UpdateOrder = UpdateOrder(id: int, recipeId: int, status: string)

  /** What `validateDto` does with a body: it throws when the body is null
      (class-validator reads the constructor of the value it validates),
      and otherwise returns the instance or the list of failures, one entry
      per failing property (the constraint texts are not modelled). */
  datatype Validated<T> = Threw | Checked(data: Option<T>, errors: seq<string>)

  /** The one place that turns a list of failures into `validateDto`'s
      result: the data is present exactly when nothing failed. */
  function Verdict<T>(errors: seq<string>, data: T): (v: Validated<T>)
    ensures v.Checked? && v.errors == errors
    ensures v.data.None? <==> |v.errors| > 0
    ensures v.data.Some? ==> v.data.value == data
  {
    if |errors| > 0 then Checked(None, errors) else Checked(Some(data), [])
  }

  function Check(ok: bool, property: string): seq<string> {
    if ok then [] else [property]
  }

  // ---------------------------------------------------------------- lines

  /** The nested `Ingredient` class: `ingredientId` a whole number,
      `quantity` an integer of at least 1. */
  predicate IsLine(j: Json) {
    && j.JObj?
    && IsWhole(Field(j, "ingredientId"))
    && IsWhole(Field(j, "quantity"))
    && WholeValue(Field(j, "quantity")) >= 1
  }

  function LineOf(j: Json): Line
    requires IsLine(j)
  {
    Line(WholeValue(Field(j, "ingredientId")), WholeValue(Field(j, "quantity")))
  }

  function LineJson(l: Line): Json {
    JObj(map["ingredientId" := Num(l.ingredientId), "quantity" := Num(l.quantity)])
  }

  function LinesJson(ls: seq<Line>): (r: seq<Json>)
    ensures |r| == |ls|
    ensures forall i :: 0 <= i < |ls| ==> r[i] == LineJson(ls[i])
  {
    if ls == [] then [] else [LineJson(ls[0])] + LinesJson(ls[1..])
  }

  /** Every element passes the nested validation (`ValidateNested({each: true})`). */
  predicate AllLines(items: seq<Json>) {
    forall i :: 0 <= i < |items| ==> IsLine(items[i])
  }

  function LinesOf(items: seq<Json>): (r: seq<Line>)
    requires AllLines(items)
    ensures |r| == |items|
    ensures forall i :: 0 <= i < |items| ==> r[i] == LineOf(items[i])
  {
    if items == [] then [] else [LineOf(items[0])] + LinesOf(items[1..])
  }

  lemma {:induction false} LineRoundTrip(l: Line)
    ensures IsLine(LineJson(l)) <==> l.quantity >= 1
    ensures l.quantity >= 1 ==> LineOf(LineJson(l)) == l
  {
    var j := LineJson(l);
    assert Field(j, "ingredientId") == Some(Num(l.ingredientId));
    assert Field(j, "quantity") == Some(Num(l.quantity));
  }

  // ---------------------------------------------- IngredientsRequestDto

  /** The class-validator rules of `IngredientsRequestDto`, stated directly:
      whole `orderId` and `recipeId`, and an array `ingredients` whose every
      element is a valid line. No non-empty or unique-id rule. */
  predicate IsIngredientsRequest(j: Json) {
    && j.JObj?
    && IsWhole(Field(j, "orderId"))
    && IsWhole(Field(j, "recipeId"))
    && Field(j, "ingredients").Some?
    && Field(j, "ingredients").value.JArr?
    && AllLines(Field(j, "ingredients").value.items)
  }

  predicate IngredientsOk(v: Option<Json>) {
    v.Some? && v.value.JArr? && AllLines(v.value.items)
  }

  function ValidateIngredientsRequest(j: Json): (v: Validated<IngredientsRequest>)
    ensures v.Threw? <==> j == JNull
    ensures v.Checked? ==> (v.data.None? <==> |v.errors| > 0)
    ensures v.Checked? ==> (v.data.Some? <==> IsIngredientsRequest(j))
    ensures v.Checked? && v.data.Some? ==>
      && v.data.value.orderId == WholeValue(Field(j, "orderId"))
      && v.data.value.recipeId == WholeValue(Field(j, "recipeId"))
      && |v.data.value.ingredients| == |Field(j, "ingredients").value.items|
      && forall i :: 0 <= i < |v.data.value.ingredients| ==>
           v.data.value.ingredients[i] == LineOf(Field(j, "ingredients").value.items[i])
  {
    if j == JNull then Threw
    else if !j.JObj? then Checked(None, ["an unknown value was passed to the validate function"])
    else
      var errors :=
        Check(IsWhole(Field(j, "orderId")), "orderId")
        + Check(IsWhole(Field(j, "recipeId")), "recipeId")
        + Check(IngredientsOk(Field(j, "ingredients")), "ingredients");
      if |errors| > 0 then Checked(None, errors)
      else
        Verdict(errors, IngredientsRequest(
          WholeValue(Field(j, "orderId")),
          WholeValue(Field(j, "recipeId")),
          LinesOf(Field(j, "ingredients").value.items)))
  }

  /** The body a publisher builds for a reservation request. */
  function IngredientsRequestJson(orderId: Json, recipeId: int, lines: seq<Line>): Json {
    JObj(map[
      "orderId" := orderId,
      "recipeId" := Num(recipeId),
      "ingredients" := JArr(LinesJson(lines))])
  }

  /** Round trip: the body built from a request validates back to the same
      request exactly when every quantity is at least 1; an empty list or
      repeated ingredient ids are no obstacle. */
  lemma {:induction false} IngredientsRequestRoundTrip(orderId: int, recipeId: int, lines: seq<Line>)
    ensures var v := ValidateIngredientsRequest(IngredientsRequestJson(Num(orderId), recipeId, lines));
      && v.Checked?
      && (v.data.Some? <==> forall i :: 0 <= i < |lines| ==> lines[i].quantity >= 1)
      && (v.data.Some? ==> v.data.value == IngredientsRequest(orderId, recipeId, lines))
  {
    var j := IngredientsRequestJson(Num(orderId), recipeId, lines);
    var items := LinesJson(lines);
    assert Field(j, "orderId") == Some(Num(orderId));
    assert Field(j, "recipeId") == Some(Num(recipeId));
    assert Field(j, "ingredients") == Some(JArr(items));
    forall i | 0 <= i < |lines|
      ensures IsLine(items[i]) <==> lines[i].quantity >= 1
      ensures lines[i].quantity >= 1 ==> LineOf(items[i]) == lines[i]
    {
      LineRoundTrip(lines[i]);
    }
    var v := ValidateIngredientsRequest(j);
    if v.data.Some? {
      assert v.data.value.ingredients == lines;
    }
  }

  // ------------------------------------------------------ UpdateOrderDto

  /** The class-validator rules of `UpdateOrderDto`: whole `id` and
      `recipeId`, and a string `status` (any string: no check against the
      enum's keys). All three are required. */
  predicate IsUpdateOrder(j: Json) {
    && j.JObj?
    && IsWhole(Field(j, "id"))
    && IsWhole(Field(j, "recipeId"))
    && Field(j, "status").Some?
    && Field(j, "status").value.JStr?
  }

  predicate IsString(v: Option<Json>) {
    v.Some? && v.value.JStr?
  }

  function ValidateUpdateOrder(j: Json): (v: Validated<UpdateOrder>)
    ensures v.Threw? <==> j == JNull
    ensures v.Checked? ==> (v.data.None? <==> |v.errors| > 0)
    ensures v.Checked? ==> (v.data.Some? <==> IsUpdateOrder(j))
    ensures v.Checked? && v.data.Some? ==>
      v.data.value == UpdateOrder(WholeValue(Field(j, "id")), WholeValue(Field(j, "recipeId")), Field(j, "status").value.s)
  {
    if j == JNull then Threw
    else if !j.JObj? then Checked(None, ["an unknown value was passed to the validate function"])
    else
      var errors :=
        Check(IsWhole(Field(j, "id")), "id")
        + Check(IsWhole(Field(j, "recipeId")), "recipeId")
        + Check(IsString(Field(j, "status")), "status");
      if |errors| > 0 then Checked(None, errors)
      else
        Verdict(errors, UpdateOrder(
          WholeValue(Field(j, "id")), WholeValue(Field(j, "recipeId")), Field(j, "status").value.s))
  }

  /** The `{id, recipeId, status}` body of an `orders.update.order` publish. */
  function OrderUpdateJson(id: Json, recipeId: Json, status: string): Json {
    JObj(map["id" := id, "recipeId" := recipeId, "status" := JStr(status)])
  }

  /** A nullable integer column as JSON. */
  function NumOrNull(v: Option<int>): Json {
    if v.Some? then Num(v.value) else JNull
  }

  /** Round trip: an update body validates exactly when its id and recipe id
      are whole numbers, and then yields the same three fields. In
      particular a null `recipeId` is rejected. */
  lemma OrderUpdateRoundTrip(id: Json, recipeId: Json, status: string)
    ensures var v := ValidateUpdateOrder(OrderUpdateJson(id, recipeId, status));
      && v.Checked?
      && (v.data.Some? <==> IsWhole(Some(id)) && IsWhole(Some(recipeId)))
      && (v.data.Some? ==> v.data.value == UpdateOrder(WholeValue(Some(id)), WholeValue(Some(recipeId)), status))
  {
    var j := OrderUpdateJson(id, recipeId, status);
    assert Field(j, "id") == Some(id);
    assert Field(j, "recipeId") == Some(recipeId);
    assert Field(j, "status") == Some(JStr(status));
  }
}

=== FILE: kitchen.dfy ===
/** The kitchen service: order intake with a randomly drawn recipe, the
    recipe book as it is shown (each recipe's ingredients looked up in the
    warehouse), and the status advancer the retry loop drives. The kitchen
    writes nothing to its own database; everything it does is replies,
    publishes and RPC requests. */
module KitchenService {
  import opened Base
  import opened Broker
  import opened Dto
  import opened Market
  import KitchenStatus

  /** A recipe row with its `recipeIngredient` rows, in table order. */
  datatype Recipe = Recipe(id: int, name: string, description: string, image: string, ingredients: seq<Line>)

  /** The kitchen's database: the recipes in table order. */
  datatype Kitchen = Kitchen(recipes: seq<Recipe>)

  /** Recipe ids are a primary key. */
  ghost predicate UniqueIds(k: Kitchen) {
    forall i, j :: 0 <= i < j < |k.recipes| ==> k.recipes[i].id != k.recipes[j].id
  }

  /** One ingredient of a recipe as it is shown: `{id, image, name, quantity}`. */
  datatype Portion = Portion(id: int, image: string, name: string, quantity: int)

  /** A recipe as it is shown: the row plus the ingredients that could be
      looked up. */
  datatype RecipeDetail = RecipeDetail(id: int, name: string, description: string, image: string, ingredients: seq<Portion>)

  /** What a kitchen service call answers, publishes and asks over RPC. */
  datatype Served<D> = Served(reply: Reply<D>, outbox: seq<Envelope>, rpc: seq<Envelope>)

  /** The warehouse's answer to `warehouse.get.ingredient.byId` for each
      ingredient id, as the kitchen's RPC call resolves. */
  type Lookup = int -> Rpc<Reply<IngredientRef>>

  // ------------------------------------------------ ingredient lookups

  /** The RPC request for one ingredient. */
  function IngredientQuery(id: int): Envelope {
    Envelope("warehouse_exchange", "warehouse.get.ingredient.byId", JObj(map["id" := Num(id)]))
  }

  /** `warehouseResponse && warehouseResponse.success` */
  predicate Found(lookup: Lookup, id: int) {
    lookup(id).Replied? && lookup(id).reply.Success?
  }

  /** The RPC for some line is never answered: the call rejects. */
  predicate TimesOut(lines: seq<Line>, lookup: Lookup) {
    exists i :: 0 <= i < |lines| && lookup(lines[i].ingredientId).TimedOut?
  }

  /** How many lines have an ingredient the warehouse answers for. */
  function CountFound(lines: seq<Line>, lookup: Lookup): nat {
    if lines == [] then 0
    else (if Found(lookup, lines[0].ingredientId) then 1 else 0) + CountFound(lines[1..], lookup)
  }

  function AsLine(p: Portion): Line {
    Line(p.id, p.quantity)
  }

  function Lines(ps: seq<Portion>): (r: seq<Line>)
    ensures |r| == |ps|
    ensures forall i :: 0 <= i < |ps| ==> r[i] == AsLine(ps[i])
  {
    if ps == [] then [] else [AsLine(ps[0])] + Lines(ps[1..])
  }

  /** The portions kept, the RPC requests issued, and whether one of them
      timed out (which ends the loop). */
  datatype Gathered = Gathered(found: seq<Portion>, rpc: seq<Envelope>, timedOut: bool)

  /** The loop over a recipe's ingredients: one RPC per ingredient, in
      order; an ingredient is kept, with the recipe's quantity and the
      warehouse's name and image, when the reply is a success, and skipped
      otherwise; a timeout rejects and ends the loop. */
  function Gather(lines: seq<Line>, lookup: Lookup): (g: Gathered)
    ensures |g.rpc| <= |lines|
    ensures forall i :: 0 <= i < |g.rpc| ==> g.rpc[i] == IngredientQuery(lines[i].ingredientId)
    ensures !g.timedOut ==> |g.rpc| == |lines|
  {
    if lines == [] then Gathered([], [], false)
    else
      var l := lines[0];
      var q := IngredientQuery(l.ingredientId);
      if lookup(l.ingredientId).TimedOut? then Gathered([], [q], true)
      else
        var rest := Gather(lines[1..], lookup);
        if Found(lookup, l.ingredientId) then
          var ref := lookup(l.ingredientId).reply.data;
          Gathered([Portion(l.ingredientId, ref.image, ref.name, l.quantity)] + rest.found, [q] + rest.rpc, rest.timedOut)
        else
          Gathered(rest.found, [q] + rest.rpc, rest.timedOut)
  }

  /** A list of lines times out when its first line does or its tail does. */
  lemma TimesOutCons(lines: seq<Line>, lookup: Lookup)
    requires lines != []
    ensures TimesOut(lines, lookup) <==> lookup(lines[0].ingredientId).TimedOut? || TimesOut(lines[1..], lookup)
  {
    if TimesOut(lines[1..], lookup) {
      var i :| 0 <= i < |lines[1..]| && lookup(lines[1..][i].ingredientId).TimedOut?;
      assert lines[i + 1] == lines[1..][i];
    }
    if TimesOut(lines, lookup) && !lookup(lines[0].ingredientId).TimedOut? {
      var i :| 0 <= i < |lines| && lookup(lines[i].ingredientId).TimedOut?;
      assert lines[1..][i - 1] == lines[i];
    }
  }

  /** The loop fails exactly when some ingredient's RPC times out, and it
      stops at the first one that does. */
  lemma {:induction false} GatherTimeout(lines: seq<Line>, lookup: Lookup)
    ensures var g := Gather(lines, lookup);
      && (g.timedOut <==> TimesOut(lines, lookup))
      && (g.timedOut ==>
            && |g.rpc| > 0
            && lookup(lines[|g.rpc| - 1].ingredientId).TimedOut?
            && forall i :: 0 <= i < |g.rpc| - 1 ==> !lookup(lines[i].ingredientId).TimedOut?)
  {
    if lines != [] {
      var l := lines[0];
      if !lookup(l.ingredientId).TimedOut? {
        GatherTimeout(lines[1..], lookup);
        TimesOutCons(lines, lookup);
        var g := Gather(lines, lookup);
        var rest := Gather(lines[1..], lookup);
        assert g.rpc == [IngredientQuery(l.ingredientId)] + rest.rpc;
        assert forall i :: 0 < i < |lines| ==> lines[i] == lines[1..][i - 1];
      } else {
        TimesOutCons(lines, lookup);
      }
    }
  }

  /** Every kept ingredient is one the warehouse answered for, with the
      warehouse's name and image; the kept lines are a subsequence of the
      recipe's; and when no lookup timed out they are exactly the lines the
      warehouse answers for. */
  lemma {:induction false} GatherFound(lines: seq<Line>, lookup: Lookup)
    ensures var g := Gather(lines, lookup);
      && (forall p :: p in g.found ==>
            Found(lookup, p.id) && p.name == lookup(p.id).reply.data.name && p.image == lookup(p.id).reply.data.image)
      && IsSubsequence(Lines(g.found), lines)
      && (!g.timedOut ==> |g.found| == CountFound(lines, lookup))
  {
    if lines != [] {
      var l := lines[0];
      if !lookup(l.ingredientId).TimedOut? {
        GatherFound(lines[1..], lookup);
        var g := Gather(lines, lookup);
        var rest := Gather(lines[1..], lookup);
        if Found(lookup, l.ingredientId) {
          assert Lines(g.found) == [l] + Lines(rest.found);
          assert ([l] + Lines(rest.found))[1..] == Lines(rest.found);
        } else {
          assert g.found == rest.found;
          assert Lines(rest.found) == [] || Lines(rest.found)[0] != l;
        }
      }
    }
  }

  /** Every line the warehouse answers for is among the kept ones. */
  lemma {:induction false} GatherKeepsFound(lines: seq<Line>, lookup: Lookup)
    requires !TimesOut(lines, lookup)
    ensures forall l :: l in lines && Found(lookup, l.ingredientId) ==> l in Lines(Gather(lines, lookup).found)
  {
    if lines != [] {
      TimesOutCons(lines, lookup);
      GatherKeepsFound(lines[1..], lookup);
      var g := Gather(lines, lookup);
      var rest := Gather(lines[1..], lookup);
      if Found(lookup, lines[0].ingredientId) {
        assert Lines(g.found) == [lines[0]] + Lines(rest.found);
      } else {
        assert g.found == rest.found;
      }
    }
  }

  // ------------------------------------------------------------ recipes

  /** `prisma.recipe.findUnique({where: {id}})` */
  function FindRecipe(rs: seq<Recipe>, id: int): (r: Option<Recipe>)
    ensures r.Some? ==> r.value in rs && r.value.id == id
    ensures r.None? <==> forall x :: x in rs ==> x.id != id
  {
    if rs == [] then None
    else if rs[0].id == id then Some(rs[0])
    else FindRecipe(rs[1..], id)
  }

  function Detail(x: Recipe, found: seq<Portion>): RecipeDetail {
    RecipeDetail(x.id, x.name, x.description, x.image, found)
  }

  /** `getRecipeById`: 404 for an unknown id; otherwise the recipe with
      the ingredients the warehouse answers for, or 400 when a lookup
      times out. */
  function GetRecipeById(k: Kitchen, id: int, lookup: Lookup): (r: Served<RecipeDetail>)
    ensures r.outbox == [] && !r.reply.Invalid?
    ensures r.reply == Failure(404) <==> forall x :: x in k.recipes ==> x.id != id
    ensures r.reply == Failure(404) ==> r.rpc == []
    ensures FindRecipe(k.recipes, id).Some? ==>
      var x := FindRecipe(k.recipes, id).value;
      && (r.reply.Failure? <==> TimesOut(x.ingredients, lookup))
      && (r.reply.Failure? ==> r.reply.status == 400)
      && (r.reply.Success? ==>
            && r.reply.status == 200
            && r.reply.data.id == id
            && r.reply.data.name == x.name && r.reply.data.description == x.description
            && r.reply.data.image == x.image
            && IsSubsequence(Lines(r.reply.data.ingredients), x.ingredients)
            && |r.reply.data.ingredients| == CountFound(x.ingredients, lookup))
  {
    match FindRecipe(k.recipes, id)
    case None => Served(Failure(404), [], [])
    case Some(x) =>
      var g := Gather(x.ingredients, lookup);
      GatherTimeout(x.ingredients, lookup);
      GatherFound(x.ingredients, lookup);
      if g.timedOut then Served(Failure(400), [], g.rpc)
      else Served(Success(200, Detail(x, g.found)), [], g.rpc)
  }

  /** The recipe list built so far and the RPC requests behind it. */
  datatype Listing = Listing(details: seq<RecipeDetail>, rpc: seq<Envelope>, timedOut: bool)

  /** The loop of `getRecipes` over the recipe rows. */
  function ListFrom(rs: seq<Recipe>, lookup: Lookup): (l: Listing)
    ensures l.timedOut <==> exists i :: 0 <= i < |rs| && TimesOut(rs[i].ingredients, lookup)
    ensures !l.timedOut ==> |l.details| == |rs|
    ensures !l.timedOut ==> forall i :: 0 <= i < |rs| ==>
      l.details[i] == Detail(rs[i], Gather(rs[i].ingredients, lookup).found)
  {
    if rs == [] then Listing([], [], false)
    else
      var g := Gather(rs[0].ingredients, lookup);
      GatherTimeout(rs[0].ingredients, lookup);
      if g.timedOut then Listing([], g.rpc, true)
      else
        var rest := ListFrom(rs[1..], lookup);
        assert forall i :: 0 < i < |rs| ==> rs[i] == rs[1..][i - 1];
        Listing([Detail(rs[0], g.found)] + rest.details, g.rpc + rest.rpc, rest.timedOut)
  }

  /** `getRecipes`: every recipe, as `getRecipeById` shows it; 400 when a
      lookup times out. */
  function GetRecipes(k: Kitchen, lookup: Lookup): (r: Served<seq<RecipeDetail>>)
    ensures r.outbox == [] && !r.reply.Invalid?
    ensures r.reply.Failure? <==> exists i :: 0 <= i < |k.recipes| && TimesOut(k.recipes[i].ingredients, lookup)
    ensures r.reply.Failure? ==> r.reply.status == 400
    ensures r.reply.Success? ==> r.reply.status == 200 && |r.reply.data| == |k.recipes|
  {
    var l := ListFrom(k.recipes, lookup);
    if l.timedOut then Served(Failure(400), [], l.rpc) else Served(Success(200, l.details), [], l.rpc)
  }

  /** With unique ids, the list shows each recipe exactly as asking for it
      by id does. */
  lemma RecipesAgreeWithById(k: Kitchen, lookup: Lookup, i: int)
    requires UniqueIds(k)
    requires GetRecipes(k, lookup).reply.Success?
    requires 0 <= i < |k.recipes|
    ensures GetRecipeById(k, k.recipes[i].id, lookup).reply == Success(200, GetRecipes(k, lookup).reply.data[i])
  {
    FindUnique(k.recipes, i);
  }

  /** Under unique ids, looking a recipe's id up finds that recipe. */
  lemma {:induction false} FindUnique(rs: seq<Recipe>, i: int)
    requires forall a, b :: 0 <= a < b < |rs| ==> rs[a].id != rs[b].id
    requires 0 <= i < |rs|
    ensures FindRecipe(rs, rs[i].id) == Some(rs[i])
  {
    if i > 0 {
      assert rs[0].id != rs[i].id;
      assert rs[1..][i - 1] == rs[i];
      FindUnique(rs[1..], i - 1);
    }
  }

  // ------------------------------------------------------ order intake

  /** The order update the kitchen publishes for `orders.update.order`. */
  function StatusUpdate(id: Json, recipeId: Json, status: string): Envelope {
    Envelope("orders_exchange", "orders.update.order", OrderUpdateJson(id, recipeId, status))
  }

  /** The reservation request for the warehouse. */
  function WarehouseRequest(orderId: Json, x: Recipe): Envelope {
    Envelope("warehouse_exchange", "warehouse.ingredients.request", IngredientsRequestJson(orderId, x.id, x.ingredients))
  }

  /** `{orderId}` on the kitchen's retry exchange: look at the order again
      once the retry queue dead-letters it. */
  function VerificationEnvelope(orderId: Json): Envelope {
    Envelope("kitchen_retry_exchange", "kitchen.retry.verificationOrderStatus", JObj(map["orderId" := orderId]))
  }

  /** The data of `newOrder`'s reply; `recipe` is `recipeData.data`, absent
      when `getRecipeById` failed. */
  datatype Intake = Intake(orderId: Json, recipeId: int, recipe: Option<RecipeDetail>, status: string)

  /** `newOrder`: `getRandomRecipe` draws the row at `index`, which
      `Math.random` picks below the row count; with no recipes it throws and
      the call answers 400. The chosen recipe is then shown through
      `getRecipeById` (whose failure does not stop the intake), and three
      messages are published in order: the order update to
      REQUESTING_INGREDIENTS, the reservation request listing the recipe's
      lines, and the first verification. */
  function NewOrder(k: Kitchen, orderId: Json, index: nat, lookup: Lookup): (r: Served<Intake>)
    ensures !r.reply.Invalid?
    ensures r.reply == Failure(400) <==> |k.recipes| == 0
    ensures r.reply == Failure(404) <==> 0 < |k.recipes| <= index
    ensures r.reply.Failure? ==> r.outbox == [] && r.rpc == []
    ensures r.reply.Success? ==>
      && index < |k.recipes|
      && var x := k.recipes[index];
      && r.reply.status == 200
      && r.reply.data.orderId == orderId
      && r.reply.data.recipeId == x.id
      && r.reply.data.status == KitchenStatus.Key(KitchenStatus.RequestingIngredients)
      && r.outbox == [
           StatusUpdate(orderId, Num(x.id), KitchenStatus.Key(KitchenStatus.RequestingIngredients)),
           WarehouseRequest(orderId, x),
           VerificationEnvelope(orderId)]
  {
    if |k.recipes| == 0 then Served(Failure(400), [], [])
    else if index >= |k.recipes| then Served(Failure(404), [], [])
    else
      var x := k.recipes[index];
      var shown := GetRecipeById(k, x.id, lookup);
      var status := KitchenStatus.Key(KitchenStatus.RequestingIngredients);
      Served(
        Success(200, Intake(orderId, x.id, if shown.reply.Success? then Some(shown.reply.data) else None, status)),
        [StatusUpdate(orderId, Num(x.id), status), WarehouseRequest(orderId, x), VerificationEnvelope(orderId)],
        shown.rpc)
  }

  /** The intake's reply shows the drawn recipe with the ingredients the
      warehouse answers for, or no recipe exactly when a lookup timed out. */
  lemma IntakeShowsRecipe(k: Kitchen, orderId: Json, index: nat, lookup: Lookup)
    requires UniqueIds(k)
    requires NewOrder(k, orderId, index, lookup).reply.Success?
    ensures var x := k.recipes[index];
      var shown := NewOrder(k, orderId, index, lookup).reply.data.recipe;
      && (shown.None? <==> TimesOut(x.ingredients, lookup))
      && (shown.Some? ==> shown.value.id == x.id && IsSubsequence(Lines(shown.value.ingredients), x.ingredients))
  {
    FindUnique(k.recipes, index);
    GatherTimeout(k.recipes[index].ingredients, lookup);
    GatherFound(k.recipes[index].ingredients, lookup);
  }

  /** The three published bodies are what their consumers accept: the order
      update validates to the drawn recipe with the REQUESTING_INGREDIENTS
      key, and the reservation request validates to exactly the recipe's
      lines, in order, provided the order id is a whole number and every
      quantity is at least 1. */
  lemma {:induction false} IntakeMessagesValidate(k: Kitchen, orderId: int, index: nat, lookup: Lookup)
    requires NewOrder(k, Num(orderId), index, lookup).reply.Success?
    requires forall i :: 0 <= i < |k.recipes[index].ingredients| ==> k.recipes[index].ingredients[i].quantity >= 1
    ensures var x := k.recipes[index];
      var out := NewOrder(k, Num(orderId), index, lookup).outbox;
      && ValidateUpdateOrder(out[0].body) == Checked(Some(UpdateOrder(orderId, x.id, "REQUESTING_INGREDIENTS")), [])
      && ValidateIngredientsRequest(out[1].body) == Checked(Some(IngredientsRequest(orderId, x.id, x.ingredients)), [])
      && out[2].exchange == "kitchen_retry_exchange"
  {
    var x := k.recipes[index];
    OrderUpdateRoundTrip(Num(orderId), Num(x.id), "REQUESTING_INGREDIENTS");
    IngredientsRequestRoundTrip(orderId, x.id, x.ingredients);
  }

  /** There is always a row at a drawn index: with at least one recipe and
      `index` below the row count, the intake succeeds. */
  lemma IntakeSucceeds(k: Kitchen, orderId: Json, index: nat, lookup: Lookup)
    requires index < |k.recipes|
    ensures NewOrder(k, orderId, index, lookup).reply.Success?
  {
  }

  // ----------------------------------------------------- status advance

  /** The RPC request for the stored order. */
  function OrderQuery(orderId: Json): Envelope {
    Envelope("orders_exchange", "orders.get.orderById", JObj(map["id" := orderId]))
  }

  /** The data of `checkAndAdvanceOrderStatus`'s reply. */
  datatype Advance = Advance(orderId: int, recipeId: Option<int>, status: string)

  /** The observed status is the display string of one of the states the
      advancer acts on. */
  predicate Advances(status: string) {
    status == KitchenStatus.Value(KitchenStatus.DeliveredIngredients)
    || status == KitchenStatus.Value(KitchenStatus.Preparing)
  }

  /** `checkAndAdvanceOrderStatus`: ask the orders service for the order.
      No order (a falsy reply) is 404. A failed reply has no data, so
      reading its status throws, and that and a timeout are 400. A stored
      DELIVERED_INGREDIENTS display string is moved on to PREPARING and a
      PREPARING one to COMPLETED, by publishing the key; any other status
      is echoed and nothing is published. */
  function CheckAndAdvance(orderId: Json, answer: Rpc<Reply<Order>>): (r: Served<Advance>)
    ensures r.rpc == [OrderQuery(orderId)] && !r.reply.Invalid?
    ensures r.reply == Failure(404) <==> answer.Empty?
    ensures r.reply == Failure(400) <==> answer.TimedOut? || (answer.Replied? && !answer.reply.Success?)
    ensures r.reply.Failure? ==> r.outbox == []
    ensures r.reply.Success? ==>
      && answer.Replied? && answer.reply.Success?
      && var o := answer.reply.data;
      && r.reply.status == 200
      && r.reply.data.orderId == o.id && r.reply.data.recipeId == o.recipeId
      && (r.outbox != [] <==> Advances(o.status))
      && (!Advances(o.status) ==> r.reply.data.status == o.status)
    ensures |r.outbox| <= 1
    ensures r.outbox != [] ==>
      var o := answer.reply.data;
      exists s: KitchenStatus.Status ::
        && KitchenStatus.Value(s) == o.status
        && KitchenStatus.Successor(s).Some?
        && var next := KitchenStatus.Key(KitchenStatus.Successor(s).value);
        && r.reply.data.status == next
        && r.outbox == [StatusUpdate(Num(o.id), NumOrNull(o.recipeId), next)]
  {
    match answer
    case TimedOut => Served(Failure(400), [], [OrderQuery(orderId)])
    case Empty => Served(Failure(404), [], [OrderQuery(orderId)])
    case Replied(reply) =>
      if !reply.Success? then Served(Failure(400), [], [OrderQuery(orderId)])
      else
        var o := reply.data;
        var from := if o.status == KitchenStatus.Value(KitchenStatus.DeliveredIngredients)
          then KitchenStatus.DeliveredIngredients else KitchenStatus.Preparing;
        if Advances(o.status) then
          var next := KitchenStatus.Key(KitchenStatus.Successor(from).value);
          assert KitchenStatus.Value(from) == o.status;
          Served(
            Success(200, Advance(o.id, o.recipeId, next)),
            [StatusUpdate(Num(o.id), NumOrNull(o.recipeId), next)],
            [OrderQuery(orderId)])
        else
          Served(Success(200, Advance(o.id, o.recipeId, o.status)), [], [OrderQuery(orderId)])
  }

  /** The two moves, spelled out: DELIVERED_INGREDIENTS to PREPARING and
      PREPARING to COMPLETED. */
  lemma AdvanceMoves(orderId: Json, o: Order, status: int)
    ensures o.status == KitchenStatus.Value(KitchenStatus.DeliveredIngredients) ==>
      CheckAndAdvance(orderId, Replied(Success(status, o))).reply.data.status == "PREPARING"
    ensures o.status == KitchenStatus.Value(KitchenStatus.Preparing) ==>
      CheckAndAdvance(orderId, Replied(Success(status, o))).reply.data.status == "COMPLETED"
  {
    if o.status == KitchenStatus.Value(KitchenStatus.DeliveredIngredients) {
      assert KitchenStatus.Value(KitchenStatus.DeliveredIngredients) != KitchenStatus.Value(KitchenStatus.Preparing);
    }
  }
}

=== FILE: kitchen_controller.dfy ===
/** The kitchen consumer: the routing-key table, dispatch and
    acknowledgement, and the verification loop that re-reads an order every
    ten seconds until the kitchen has completed it. */
module KitchenController {
  import opened Base
  import opened Broker
  import opened Dto
  import opened KitchenService
  import KitchenStatus

  datatype Route = NewOrderIntake | RecipeList | RecipeById | Verification

  /** `initializeHandlers`: four keys. */
  const Handlers: map<string, Route> := map[
    "kitchen.orders.newOrder" := NewOrderIntake,
    "kitchen.get.recipes" := RecipeList,
    "kitchen.get.recipeById" := RecipeById,
    "kitchen.retry.verificationOrderStatus" := Verification]

  /** The keys `kitchen_queue` is bound under on `kitchen_exchange`. */
  const Bindings: seq<string> := [
    "kitchen.orders.newOrder",
    "kitchen.get.recipes",
    "kitchen.get.recipeById",
    "kitchen.retry.verificationOrderStatus"]

  /** `setupRetryQueue` */
  const Retry: RetryQueue := RetryQueue(
    "kitchen_retry_queue", "kitchen_retry_exchange", "kitchen.retry.verificationOrderStatus",
    "kitchen_exchange", "kitchen.retry.verificationOrderStatus", 10000)

  /** The data of the kitchen's replies. */
  datatype Data =
    | Taken(intake: Intake)
    | Recipes(recipes: seq<RecipeDetail>)
    | OneRecipe(recipe: RecipeDetail)
    | Progress(advance: Advance)

  /** What the kitchen meets outside itself while handling one message: the
      row `Math.random` picks, the warehouse's ingredient replies, and the
      orders service's reply about the order being verified. */
  datatype Oracles = Oracles(index: nat, lookup: Lookup, order: Rpc<Reply<Order>>)

  /** A service call whose reply is sent back. */
  function Answer<D>(k: Kitchen, s: Served<D>, f: D -> Data): Handled<Kitchen, Data> {
    Handled(k, Some(MapReply(s.reply, f)), s.outbox, s.rpc, 0, false)
  }

  /** `handleNewOrder`: nothing is done for a body without a truthy
      `orderId` (`payload?.orderId`, so a null body is no error). */
  function HandleNewOrder(k: Kitchen, payload: Json, w: Oracles): Handled<Kitchen, Data> {
    var orderId := Field(payload, "orderId");
    if !Truthy(orderId) then Returned(k, None, [])
    else Answer(k, NewOrder(k, orderId.value, w.index, w.lookup), i => Taken(i))
  }

  /** `handleGetRecipeById`: nothing is done without a truthy `id`; an id
      the database cannot take (not an integer) makes the query throw,
      which the service answers with 400. */
  function HandleRecipeById(k: Kitchen, payload: Json, w: Oracles): Handled<Kitchen, Data> {
    var id := Field(payload, "id");
    if !Truthy(id) then Returned(k, None, [])
    else if IsWhole(id) then Answer(k, GetRecipeById(k, WholeValue(id), w.lookup), r => OneRecipe(r))
    else Returned(k, Some(Failure(400)), [])
  }

  /** Whether the verification of an order is scheduled again:
      `response.success && response.data?.status !== "COMPLETED"`. */
  predicate Reschedules(r: Reply<Advance>) {
    r.Success? && r.data.status != "COMPLETED"
  }

  /** `handleVerificationOrderStatus`. Its first statement logs
      `payload.orderId`, so a null body throws before the check for a
      missing id. The order is checked, and the verification is put back on
      the retry exchange unless the check failed or completed the order. */
  function HandleVerification(k: Kitchen, payload: Json, w: Oracles): Handled<Kitchen, Data> {
    var orderId := Field(payload, "orderId");
    if payload == JNull then Handled(k, None, [], [], 0, true)
    else if !Truthy(orderId) then Returned(k, None, [])
    else
      var s := CheckAndAdvance(orderId.value, w.order);
      var again := if Reschedules(s.reply) then [VerificationEnvelope(orderId.value)] else [];
      Handled(k, Some(MapReply(s.reply, a => Progress(a))), s.outbox + again, s.rpc, 0, false)
  }

  function Handle(route: Route, k: Kitchen, payload: Json, w: Oracles): Handled<Kitchen, Data> {
    match route
    case NewOrderIntake => HandleNewOrder(k, payload, w)
    case RecipeList => Answer(k, GetRecipes(k, w.lookup), rs => Recipes(rs))
    case RecipeById => HandleRecipeById(k, payload, w)
    case Verification => HandleVerification(k, payload, w)
  }

  /** `consumeMessages`: look the routing key up, run its handler, ack. */
  function Consume(k: Kitchen, d: Delivery, w: Oracles): Outcome<Kitchen, Data> {
    Settle(d.props, k, if d.routingKey in Handlers then Some(Handle(Handlers[d.routingKey], k, d.payload, w)) else None)
  }

  /** The table has four keys, and the queue is bound under exactly them. */
  lemma HandlerTable()
    ensures |Handlers| == 4
    ensures forall key :: key in Bindings <==> key in Handlers
  {
    assert Handlers.Keys == {
      "kitchen.orders.newOrder", "kitchen.get.recipes", "kitchen.get.recipeById",
      "kitchen.retry.verificationOrderStatus"};
  }

  /** A delivery under a key with no handler sends and publishes nothing
      and is acknowledged once. */
  lemma UnregisteredKeyAcked(k: Kitchen, d: Delivery, w: Oracles)
    requires d.routingKey !in Handlers
    ensures Consume(k, d, w) == Outcome(k, None, [], [], [], 1)
  {
  }

  /** A new order or a verification without a truthy `orderId` calls no
      service, sends no reply and schedules nothing; the delivery is
      acknowledged once, except that a null verification body throws and
      is never acknowledged. */
  lemma MissingOrderIdIgnored(k: Kitchen, d: Delivery, w: Oracles)
    requires d.routingKey in {"kitchen.orders.newOrder", "kitchen.retry.verificationOrderStatus"}
    requires !Truthy(Field(d.payload, "orderId"))
    ensures var o := Consume(k, d, w);
      && o.responded.None? && o.sent == [] && o.outbox == [] && o.rpc == []
      && o.acks == if d.routingKey == "kitchen.retry.verificationOrderStatus" && d.payload == JNull then 0 else 1
  {
  }

  /** One verification round for an order, by what the orders service
      answers: a failed lookup ends the loop; a stored DELIVERED_INGREDIENTS
      display string is moved to PREPARING and checked again; a stored
      PREPARING one is moved to COMPLETED and the loop ends; any other
      stored status (other than the literal "COMPLETED") is checked again
      with nothing else published. A reply is sent every time. */
  lemma {:induction false} VerificationRound(k: Kitchen, d: Delivery, w: Oracles)
    requires d.routingKey == "kitchen.retry.verificationOrderStatus"
    requires Truthy(Field(d.payload, "orderId"))
    ensures var orderId := Field(d.payload, "orderId").value;
      var o := Consume(k, d, w);
      && o.responded.Some? && o.acks == 1
      && o.rpc == [OrderQuery(orderId)]
      && (!(w.order.Replied? && w.order.reply.Success?) ==> o.outbox == [])
      && (w.order.Replied? && w.order.reply.Success? ==>
            var stored := w.order.reply.data;
            var update := (s: string) => StatusUpdate(Num(stored.id), NumOrNull(stored.recipeId), s);
            && (stored.status == KitchenStatus.Value(KitchenStatus.DeliveredIngredients) ==>
                  o.outbox == [update("PREPARING"), VerificationEnvelope(orderId)])
            && (stored.status == KitchenStatus.Value(KitchenStatus.Preparing) ==>
                  o.outbox == [update("COMPLETED")])
            && (!Advances(stored.status) && stored.status != "COMPLETED" ==>
                  o.outbox == [VerificationEnvelope(orderId)]))
  {
    var orderId := Field(d.payload, "orderId").value;
    var s := CheckAndAdvance(orderId, w.order);
    if w.order.Replied? && w.order.reply.Success? {
      var stored := w.order.reply.data;
      AdvanceMoves(orderId, stored, w.order.reply.status);
      if stored.status == KitchenStatus.Value(KitchenStatus.DeliveredIngredients) {
        KitchenStatus.ValuesDistinct(KitchenStatus.DeliveredIngredients, KitchenStatus.Preparing);
      }
    }
  }

  /** The verification the intake publishes, and every one the loop
      re-publishes, waits 10 s in the retry queue and comes back to
      `kitchen_exchange` under a key the queue is bound to and the
      verification handler serves, carrying the same `orderId`. */
  lemma RetryReentersVerification(orderId: Json)
    ensures var back := Expire(Retry, VerificationEnvelope(orderId));
      && Retry.ttlMs == 10000
      && back.Some?
      && back.value.exchange == "kitchen_exchange"
      && back.value.routingKey in Bindings
      && Handlers[back.value.routingKey] == Verification
      && Field(back.value.body, "orderId") == Some(orderId)
  {
  }
}

=== FILE: market.dfy ===
/** The warehouse's records (ingredients, their stock rows and the
    append-only market purchase log) and the market client: one purchase
    attempt per call, and the paged purchase history. */
module WarehouseData {
  import opened Base

  /** An ingredient with its optional stock row (`include: {stock: true}`). */
  datatype Ingredient = Ingredient(id: int, name: string, image: string, stock: Option<int>)

  /** A `MarketHistory` row: what was bought of which ingredient. */
  datatype Purchase = Purchase(id: int, ingredientId: int, quantity: int)

  /** The warehouse database: ingredients by id, and the purchase log in
      creation order. */
  datatype Warehouse = Warehouse(ingredients: map<int, Ingredient>, history: seq<Purchase>)

  /** Each ingredient is filed under its own id, and purchase rows carry the
      auto-increment ids 1, 2, ... in creation order. */
  ghost predicate WellFormed(w: Warehouse) {
    FiledById(w.ingredients) && HistoryIds(w.history)
  }

  ghost predicate FiledById(m: map<int, Ingredient>) {
    forall k :: k in m ==> m[k].id == k
  }

  ghost predicate HistoryIds(h: seq<Purchase>) {
    forall i :: 0 <= i < |h| ==> h[i].id == i + 1
  }

  /** The stock quantity of ingredient `k`, if it exists and has a stock row. */
  function StockOf(w: Warehouse, k: int): Option<int> {
    if k in w.ingredients then w.ingredients[k].stock else None
  }

  /** `stock.updateMany({where: {ingredientId: k}, data: {quantity: {increment: n}}})`:
      a no-op when the ingredient has no stock row. */
  function AddStock(w: Warehouse, k: int, n: int): (r: Warehouse)
    ensures r.ingredients.Keys == w.ingredients.Keys && r.history == w.history
    ensures forall j :: j != k ==> StockOf(r, j) == StockOf(w, j)
    ensures StockOf(w, k).Some? ==> StockOf(r, k) == Some(StockOf(w, k).value + n)
    ensures StockOf(w, k).None? ==> StockOf(r, k).None?
    ensures WellFormed(w) ==> WellFormed(r)
  {
    if k in w.ingredients && w.ingredients[k].stock.Some? then
      var ing := w.ingredients[k];
      w.(ingredients := w.ingredients[k := ing.(stock := Some(ing.stock.value + n))])
    else
      w
  }
}

module Market {
  import opened Base
  import opened Broker
  import opened WarehouseData

  /** What the farmers' market HTTP call gave: a JSON body whose
      `quantitySold` may be absent, or a failure (network error, non-2xx). */
  datatype MarketReply = Answered(quantitySold: Option<int>) | CallFailed

  /** A purchase attempt: the amount bought, the `ingredient` query
      parameter sent, and the purchase log afterwards. */
  datatype Bought = Bought(amount: nat, query: string, history: seq<Purchase>)

  /** `buyIngredientUntilAvailable(id, name)`: a single market call for the
      lower-cased name; the amount is `quantitySold` when that is positive
      and 0 otherwise (absent field, non-positive amount, failed call); a
      purchase row is appended exactly when something was bought. */
  function Buy(history: seq<Purchase>, id: int, name: string, reply: MarketReply): (r: Bought)
    ensures r.query == Lower(name)
    ensures reply.CallFailed? || reply.quantitySold.None? ==> r.amount == 0
    ensures reply.Answered? && reply.quantitySold.Some? && reply.quantitySold.value > 0 ==>
      r.amount == reply.quantitySold.value
    ensures r.amount > 0 <==> reply.Answered? && reply.quantitySold.Some? && reply.quantitySold.value > 0
    ensures r.amount == 0 ==> r.history == history
    ensures r.amount > 0 ==> r.history == history + [Purchase(|history| + 1, id, r.amount)]
    ensures HistoryIds(history) ==> HistoryIds(r.history)
  {
    var sold := if reply.Answered? then reply.quantitySold.GetOr(0) else 0;
    var total := if sold > 0 then sold else 0;
    Bought(total, Lower(name), if total > 0 then history + [Purchase(|history| + 1, id, total)] else history)
  }

  // ------------------------------------------------------------- history

  /** An ingredient as the history listing shows it. */
  datatype IngredientRef = IngredientRef(id: int, name: string, image: string)

  datatype HistoryEntry = HistoryEntry(id: int, ingredient: IngredientRef, quantity: int)

  /** The listing and its `meta`: `total` counts purchases (not pages),
      `page` and `perPage` echo the request. */
  datatype HistoryPage = HistoryPage(entries: seq<HistoryEntry>, total: nat, page: Option<int>, perPage: Option<int>)

  /** `((page ?? 1) - 1) * (limit ?? 10)` */
  function Skip(page: Option<int>, limit: Option<int>): int {
    (page.GetOr(1) - 1) * limit.GetOr(10)
  }

  /** The purchase log newest first (`orderBy: {createdAt: "desc"}`). */
  function NewestFirst(h: seq<Purchase>): (r: seq<Purchase>)
    ensures |r| == |h|
    ensures forall i :: 0 <= i < |h| ==> r[i] == h[|h| - 1 - i]
  {
    if h == [] then [] else NewestFirst(h[1..]) + [h[0]]
  }

  function Min(a: int, b: int): int {
    if a <= b then a else b
  }

  /** How many of `n` rows are left once `skip` of them are passed over. */
  function Remaining(n: int, skip: int): int {
    if skip <= n then n - skip else 0
  }

  /** `findMany({skip, take: limit, orderBy: {createdAt: "desc"}})`. A
      negative skip is a query error (`None`), and an absent limit takes
      every row after the skipped ones. A negative limit counts from the
      other end of the ordering: the skip and the take apply to the oldest
      rows, and the rows taken come back newest first. */
  function Fetch(h: seq<Purchase>, page: Option<int>, limit: Option<int>): (r: Option<seq<Purchase>>)
    ensures r.None? <==> Skip(page, limit) < 0
    ensures r.Some? && (limit.None? || limit.value >= 0) ==>
      var s := Skip(page, limit);
      && |r.value| == (if limit.Some? then Min(limit.value, Remaining(|h|, s)) else Remaining(|h|, s))
      && forall k :: 0 <= k < |r.value| ==> r.value[k] == h[|h| - 1 - (s + k)]
    ensures r.Some? && limit.Some? && limit.value < 0 ==>
      var s := Skip(page, limit);
      var n := Min(-limit.value, Remaining(|h|, s));
      && |r.value| == n
      && forall k :: 0 <= k < n ==> r.value[k] == h[s + n - 1 - k]
  {
    var skip := Skip(page, limit);
    if skip < 0 then None
    else if limit.Some? && limit.value < 0 then
      var oldest := if skip <= |h| then h[skip..] else [];
      Some(NewestFirst(oldest[..Min(-limit.value, |oldest|)]))
    else
      var rest := if skip <= |h| then NewestFirst(h)[skip..] else [];
      Some(if limit.Some? && limit.value < |rest| then rest[..limit.value] else rest)
  }

  /** A negative limit on the first page is answered, not refused: it
      lists the `n` oldest purchases, newest of them first. */
  lemma NegativeLimitTakesOldest(h: seq<Purchase>, n: int)
    requires 0 < n <= |h|
    ensures Fetch(h, None, Some(-n)) == Some(NewestFirst(h[..n]))
  {
    assert Skip(None, Some(-n)) == 0;
    assert h[0..] == h;
  }

  /** With the auto-increment ids of a well-formed log, a page lists
      purchases in strictly decreasing id order: newest first. */
  lemma FetchNewestFirst(h: seq<Purchase>, page: Option<int>, limit: Option<int>)
    requires HistoryIds(h)
    requires Fetch(h, page, limit).Some?
    ensures var ps := Fetch(h, page, limit).value;
      forall i, j :: 0 <= i < j < |ps| ==> ps[i].id > ps[j].id
  {
  }

  function AsPurchase(e: HistoryEntry): Purchase {
    Purchase(e.id, e.ingredient.id, e.quantity)
  }

  function Projected(es: seq<HistoryEntry>): (r: seq<Purchase>)
    ensures |r| == |es|
    ensures forall i :: 0 <= i < |es| ==> r[i] == AsPurchase(es[i])
  {
    if es == [] then [] else [AsPurchase(es[0])] + Projected(es[1..])
  }

  function RefOf(i: Ingredient): IngredientRef {
    IngredientRef(i.id, i.name, i.image)
  }

  /** The loop over the fetched purchases: each one whose ingredient still
      exists is listed with that ingredient's id, name and image; the others
      are skipped (`continue`). Only purchases are listed, in page order,
      and none with a live ingredient is dropped. */
  function Annotate(ingredients: map<int, Ingredient>, ps: seq<Purchase>): (r: seq<HistoryEntry>)
    ensures |r| <= |ps|
    ensures FiledById(ingredients) ==>
      forall e :: e in r ==> e.ingredient.id in ingredients && e.ingredient == RefOf(ingredients[e.ingredient.id])
    ensures FiledById(ingredients) ==> IsSubsequence(Projected(r), ps)
    ensures FiledById(ingredients) ==>
      forall p :: p in ps && p.ingredientId in ingredients ==> p in Projected(r)
  {
    if ps == [] then []
    else if ps[0].ingredientId !in ingredients then
      var rest := Annotate(ingredients, ps[1..]);
      assert FiledById(ingredients) ==> forall e :: e in rest ==> AsPurchase(e) != ps[0];
      rest
    else
      var ing := ingredients[ps[0].ingredientId];
      var rest := Annotate(ingredients, ps[1..]);
      var r := [HistoryEntry(ps[0].id, RefOf(ing), ps[0].quantity)] + rest;
      assert Projected(r) == [AsPurchase(r[0])] + Projected(rest);
      r
  }

  /** `getMarketHistory`: the fetched page with dangling purchases dropped,
      plus `meta`; a query error is the catch-all failure (400). */
  function GetMarketHistory(w: Warehouse, page: Option<int>, limit: Option<int>): (r: Reply<HistoryPage>)
    ensures r.Failure? <==> Skip(page, limit) < 0
    ensures r.Failure? ==> r.status == 400
    ensures r.Success? ==>
      && r.status == 200
      && r.data.total == |w.history|
      && r.data.page == page && r.data.perPage == limit
      && |r.data.entries| <= |Fetch(w.history, page, limit).value|
    ensures r.Success? && FiledById(w.ingredients) ==>
      IsSubsequence(Projected(r.data.entries), Fetch(w.history, page, limit).value)
    // every purchase on the page whose ingredient still exists is listed ...
    ensures r.Success? && FiledById(w.ingredients) ==>
      forall p :: p in Fetch(w.history, page, limit).value && p.ingredientId in w.ingredients ==> p in Projected(r.data.entries)
    // ... with that ingredient's current id, name and image
    ensures r.Success? && FiledById(w.ingredients) ==>
      forall e :: e in r.data.entries ==>
        e.ingredient.id in w.ingredients && e.ingredient == RefOf(w.ingredients[e.ingredient.id])
    ensures !r.Invalid?
  {
    match Fetch(w.history, page, limit)
    case None => Failure(400)
    case Some(ps) => Success(200, HistoryPage(Annotate(w.ingredients, ps), |w.history|, page, limit))
  }
}

=== FILE: order_status.dfy ===
/** The kitchen's `OrderStatus` enum: six states, each with the key the
    kitchen publishes and the display string it compares stored statuses
    against. */
module KitchenStatus {
  import opened Base

  datatype Status =
    | Received
    | RequestingIngredients
    | WaitingForIngredients
    | DeliveredIngredients
    | Preparing
    | Completed

  /** The states in declaration order. */
  const All: seq<Status> :=
    [Received, RequestingIngredients, WaitingForIngredients, DeliveredIngredients, Preparing, Completed]

  function Key(s: Status): string {
    match s
    case Received => "RECEIVED"
    case RequestingIngredients => "REQUESTING_INGREDIENTS"
    case WaitingForIngredients => "WAITING_FOR_INGREDIENTS"
    case DeliveredIngredients => "DELIVERED_INGREDIENTS"
    case Preparing => "PREPARING"
    case Completed => "COMPLETED"
  }

  function Value(s: Status): string {
    match s
    case Received => "Recibida y enviada a cocina"
    case RequestingIngredients => "Solicitando ingredientes a bodega"
    case WaitingForIngredients => "Esperando ingredientes de bodega"
    case DeliveredIngredients => "Ingredientes entregados a cocina"
    case Preparing => "Preparando plato"
    case Completed => "Orden Entregada"
  }

  /** The position of a state in declaration order. */
  function Rank(s: Status): (r: nat)
    ensures r < |All| && All[r] == s
  {
    match s
    case Received => 0
    case RequestingIngredients => 1
    case WaitingForIngredients => 2
    case DeliveredIngredients => 3
    case Preparing => 4
    case Completed => 5
  }

  /** The state declared right after `s`, if any. */
  function Successor(s: Status): (r: Option<Status>)
    ensures r.Some? <==> s != Completed
    ensures r.Some? ==> Rank(r.value) == Rank(s) + 1 && r.value == All[Rank(s) + 1]
  {
    if Rank(s) + 1 < |All| then Some(All[Rank(s) + 1]) else None
  }

  /** Distinct states have distinct display strings, so a display string
      names at most one state. */
  lemma ValuesDistinct(s: Status, t: Status)
    requires s != t
    ensures Value(s) != Value(t)
  {
    assert |Value(s)| != |Value(t)| || Value(s)[0] != Value(t)[0];
  }
}

/** The orders service's `OrderStatus` enum, whose keys `updateOrder` maps
    to the display strings it stores. */
module OrdersStatus {
  import opened Base

  datatype Status =
    | Received
    | SelectingRecipe
    | RequestingIngredients
    | WaitingForIngredients
    | Preparing
    | ReadyForDelivery
    | Completed

  const All: seq<Status> :=
    [Received, SelectingRecipe, RequestingIngredients, WaitingForIngredients, Preparing, ReadyForDelivery, Completed]

  function Key(s: Status): string {
    match s
    case Received => "RECEIVED"
    case SelectingRecipe => "SELECTING_RECIPE"
    case RequestingIngredients => "REQUESTING_INGREDIENTS"
    case WaitingForIngredients => "WAITING_FOR_INGREDIENTS"
    case Preparing => "PREPARING"
    case ReadyForDelivery => "READY_FOR_DELIVERY"
    case Completed => "COMPLETED"
  }

  function Value(s: Status): string {
    match s
    case Received => "Recibida y enviada a cocina"
    case SelectingRecipe => "Seleccionando receta"
    case RequestingIngredients => "Solicitando ingredientes a bodega"
    case WaitingForIngredients => "Esperando ingredientes"
    case Preparing => "Preparando plato"
    case ReadyForDelivery => "Listo para entrega"
    case Completed => "Orden completada"
  }

  /** The display strings an order can be stored with. */
  const Values: set<string> := set s | s in All :: Value(s)

  /** The properties every JavaScript object inherits from
      `Object.prototype`; `OrderStatus[key]` yields a non-string for them. */
  const Inherited: set<string> := {
    "constructor", "toString", "toLocaleString", "valueOf", "hasOwnProperty",
    "isPrototypeOf", "propertyIsEnumerable", "__proto__", "__defineGetter__",
    "__defineSetter__", "__lookupGetter__", "__lookupSetter__"
  }

  /** What `OrderStatus[key]` evaluates to. */
  datatype Lookup =
    | Member(value: string)   // a key of the enum: its display string
    | Undefined               // no such property
    | NotAString              // an inherited property: a function or object

  /** The first state in `ss` whose key is `key`. */
  function FindKey(ss: seq<Status>, key: string): (r: Option<Status>)
    ensures r.Some? ==> r.value in ss && Key(r.value) == key
    ensures r.None? ==> forall s :: s in ss ==> Key(s) != key
  {
    if ss == [] then None
    else if Key(ss[0]) == key then Some(ss[0])
    else FindKey(ss[1..], key)
  }

  function LookupKey(key: string): (r: Lookup)
    ensures r.Member? <==> exists s :: s in All && Key(s) == key
    ensures r.Member? ==> exists s :: s in All && Key(s) == key && r.value == Value(s)
    ensures r.NotAString? <==> key in Inherited && forall s :: s in All ==> Key(s) != key
  {
    match FindKey(All, key)
    case Some(s) => Member(Value(s))
    case None => if key in Inherited then NotAString else Undefined
  }

  /** `OrderStatus[key]` for the enum the saga evidently needs: the keys
      above plus DELIVERED_INGREDIENTS, under the kitchen's display string
      "Ingredientes entregados a cocina". */
  function LookupKeyIntended(key: string): (r: Lookup)
    ensures key == "DELIVERED_INGREDIENTS" ==> r == Member("Ingredientes entregados a cocina")
    ensures key != "DELIVERED_INGREDIENTS" ==> r == LookupKey(key)
  {
    if key == "DELIVERED_INGREDIENTS" then Member("Ingredientes entregados a cocina") else LookupKey(key)
  }

  /** The enum has seven keys, among them SELECTING_RECIPE and
      READY_FOR_DELIVERY, and no DELIVERED_INGREDIENTS key. */
  lemma Keys()
    ensures |All| == 7
    ensures SelectingRecipe in All && ReadyForDelivery in All
    ensures forall s :: s in All ==> Key(s) != "DELIVERED_INGREDIENTS"
    ensures LookupKey("DELIVERED_INGREDIENTS") == Undefined
  {
    var key := "DELIVERED_INGREDIENTS";
    forall s | s in All
      ensures Key(s) != key
    {
      assert |Key(s)| != |key|;
    }
    forall x | x in Inherited
      ensures x != key
    {
      assert |x| != |key|;
    }
  }

  /** Distinct states have distinct display strings. */
  lemma ValuesDistinct(s: Status, t: Status)
    requires s != t
    ensures Value(s) != Value(t)
  {
    assert |Value(s)| != |Value(t)| || Value(s)[0] != Value(t)[0];
  }
}

=== FILE: orders.dfy ===
/** The orders service: the order table, which holds one row per order with
    the recipe the kitchen chose and a display string from the orders
    `OrderStatus` enum; creation hands each new order to the kitchen. */
module OrdersService {
  import opened Base
  import opened Broker
  import opened Dto
  import opened OrdersStatus

  /** The order table: rows by id, and the next auto-increment id. */
  datatype Orders = Orders(rows: map<int, Order>, nextId: int)

  /** Rows are filed under their own ids, all below the next id. */
  ghost predicate WellFormed(s: Orders) {
    && s.nextId >= 1
    && forall id :: id in s.rows ==> s.rows[id].id == id && 1 <= id < s.nextId
  }

  /** Every stored status is a display string of the orders enum. */
  ghost predicate StatusesKnown(s: Orders) {
    forall id :: id in s.rows ==> s.rows[id].status in Values
  }

  /** What an orders service call answers, the table afterwards, and the
      RPC requests it issued. */
  datatype Stored<D> = Stored(reply: Reply<D>, store: Orders, rpc: seq<Envelope>)

  /** The data of `createNewOrder`'s reply: the new row and whatever the
      kitchen answered (absent when the RPC resolved with nothing). */
  datatype Created = Created(order: Order, kitchenResponse: Option<Json>)

  /** The RPC request that hands a new order to the kitchen. */
  function KitchenRequest(o: Order): Envelope {
    Envelope("kitchen_exchange", "kitchen.orders.newOrder", JObj(map["orderId" := Num(o.id), "status" := JStr(o.status)]))
  }

  /** `createNewOrder`: insert a row with the RECEIVED display string and no
      recipe, then ask the kitchen to take it. The answer is 200 whatever
      the kitchen replies; only a kitchen that does not reply in time makes
      it 400, and the row stays inserted even then. */
  function CreateNewOrder(s: Orders, kitchen: Rpc<Json>): (r: Stored<Created>)
    requires WellFormed(s)
    ensures WellFormed(r.store)
    ensures StatusesKnown(s) ==> StatusesKnown(r.store)
    ensures s.nextId !in s.rows
    ensures var o := Order(s.nextId, None, Value(Received));
      && r.store.rows.Keys == s.rows.Keys + {s.nextId}
      && r.store.rows[s.nextId] == o
      && (forall id :: id in s.rows ==> r.store.rows[id] == s.rows[id])
      && r.rpc == [KitchenRequest(o)]
      && (r.reply.Success? ==> r.reply.data.order == o)
    ensures r.reply.Failure? <==> kitchen.TimedOut?
    ensures r.reply.Failure? ==> r.reply.status == 400
    ensures r.reply.Success? ==> r.reply.status == 200
    ensures !r.reply.Invalid?
  {
    var o := Order(s.nextId, None, Value(Received));
    var after := Orders(s.rows[s.nextId := o], s.nextId + 1);
    assert o.status in Values by { assert Received in All; }
    match kitchen
    case TimedOut => Stored(Failure(400), after, [KitchenRequest(o)])
    case Empty => Stored(Success(200, Created(o, None)), after, [KitchenRequest(o)])
    case Replied(j) => Stored(Success(200, Created(o, Some(j))), after, [KitchenRequest(o)])
  }

  /** What `createNewOrder` evidently means to answer: 200 only when the
      kitchen took the order, i.e. replied with a truthy `success`, and 400
      for a refusal, a reply with nothing and a timeout alike. The row is
      inserted before the kitchen is asked, so it stays in every case. */
  function CreateNewOrderIntended(s: Orders, kitchen: Rpc<Json>): (r: Stored<Created>)
    requires WellFormed(s)
    ensures r.store == CreateNewOrder(s, kitchen).store && r.rpc == CreateNewOrder(s, kitchen).rpc
    ensures r.reply.Success? <==> kitchen.Replied? && Truthy(Field(kitchen.reply, "success"))
    ensures r.reply.Success? ==> r.reply == Success(200, Created(Order(s.nextId, None, Value(Received)), Some(kitchen.reply)))
    ensures !r.reply.Success? ==> r.reply == Failure(400)
  {
    var made := CreateNewOrder(s, kitchen);
    if kitchen.Replied? && Truthy(Field(kitchen.reply, "success")) then made
    else Stored(Failure(400), made.store, made.rpc)
  }

  /** As written, a kitchen that answers `{success: false}` still gets the
      order reported as created with 200. */
  lemma RefusedOrderReportedCreated(s: Orders)
    requires WellFormed(s)
    ensures var refusal := JObj(map["success" := JBool(false)]);
      && CreateNewOrder(s, Replied(refusal)).reply.Success?
      && CreateNewOrder(s, Replied(refusal)).reply.status == 200
      && CreateNewOrderIntended(s, Replied(refusal)).reply == Failure(400)
  {
  }

  /** Rows whose ids are in `[lo, hi)`, in id order. */
  function RowsBetween(rows: map<int, Order>, lo: int, hi: int): (r: seq<Order>)
    requires forall id :: id in rows ==> rows[id].id == id
    ensures forall k :: 0 <= k < |r| ==> lo <= r[k].id < hi && r[k].id in rows && rows[r[k].id] == r[k]
    ensures forall id :: id in rows && lo <= id < hi ==> rows[id] in r
    ensures forall k, m :: 0 <= k < m < |r| ==> r[k].id < r[m].id
    decreases hi - lo
  {
    if lo >= hi then []
    else if lo in rows then [rows[lo]] + RowsBetween(rows, lo + 1, hi)
    else RowsBetween(rows, lo + 1, hi)
  }

  /** `getOrders`: every row, in id order. */
  function GetOrders(s: Orders): (r: Reply<seq<Order>>)
    requires WellFormed(s)
    ensures r.Success? && r.status == 200
    ensures forall o :: o in r.data ==> o.id in s.rows && s.rows[o.id] == o
    ensures forall id :: id in s.rows ==> s.rows[id] in r.data
    ensures forall k, m :: 0 <= k < m < |r.data| ==> r.data[k].id < r.data[m].id
  {
    Success(200, RowsBetween(s.rows, 1, s.nextId))
  }

  /** `getOrderById`: the stored row, or 404. */
  function GetOrderById(s: Orders, id: int): (r: Reply<Order>)
    ensures r == Failure(404) <==> id !in s.rows
    ensures r.Success? <==> id in s.rows
    ensures r.Success? ==> r.status == 200 && r.data == s.rows[id]
  {
    if id in s.rows then Success(200, s.rows[id]) else Failure(404)
  }

  /** `updateOrder` once `OrderStatus[status]` has been evaluated to `look`:
      404 for an unknown id; otherwise the row gets the recipe id and, for
      a key of the enum, its display string. `undefined` leaves the status
      column as it was; a non-string is rejected by the database (400). */
  function UpdateWith(s: Orders, u: Dto.UpdateOrder, look: Lookup): (r: Stored<Order>)
    ensures r.rpc == [] && r.store.nextId == s.nextId && !r.reply.Invalid?
    ensures r.reply == Failure(404) <==> u.id !in s.rows
    ensures r.reply == Failure(400) <==> u.id in s.rows && look.NotAString?
    ensures r.reply.Failure? ==> r.store == s
    ensures r.reply.Success? ==>
      && u.id in s.rows
      && r.reply.status == 200
      && r.store.rows == s.rows[u.id := r.reply.data]
      && r.reply.data.id == s.rows[u.id].id
      && r.reply.data.recipeId == Some(u.recipeId)
      && (look.Member? ==> r.reply.data.status == look.value)
      && (look.Undefined? ==> r.reply.data.status == s.rows[u.id].status)
    ensures WellFormed(s) ==> WellFormed(r.store)
  {
    if u.id !in s.rows then Stored(Failure(404), s, [])
    else
      var prior := s.rows[u.id];
      match look
      case NotAString => Stored(Failure(400), s, [])
      case Undefined =>
        var o := Order(prior.id, Some(u.recipeId), prior.status);
        Stored(Success(200, o), Orders(s.rows[u.id := o], s.nextId), [])
      case Member(v) =>
        var o := Order(prior.id, Some(u.recipeId), v);
        Stored(Success(200, o), Orders(s.rows[u.id := o], s.nextId), [])
  }

  /** `updateOrder` with the orders enum as written: a key the enum does not
      have (DELIVERED_INGREDIENTS among them) leaves the status as it was,
      and an inherited property of the enum object (`constructor`, ...) is
      refused with 400. */
  function ApplyUpdate(s: Orders, u: Dto.UpdateOrder): (r: Stored<Order>)
    ensures r.rpc == [] && r.store.nextId == s.nextId && !r.reply.Invalid?
    ensures r.reply == Failure(404) <==> u.id !in s.rows
    ensures r.reply == Failure(400) <==> u.id in s.rows && LookupKey(u.status).NotAString?
    ensures r.reply.Failure? ==> r.store == s
    ensures r.reply.Success? ==>
      && u.id in s.rows
      && r.reply.status == 200
      && r.store.rows == s.rows[u.id := r.reply.data]
      && r.reply.data.id == s.rows[u.id].id
      && r.reply.data.recipeId == Some(u.recipeId)
      && (LookupKey(u.status).Member? ==> r.reply.data.status == LookupKey(u.status).value)
      && (LookupKey(u.status).Undefined? ==> r.reply.data.status == s.rows[u.id].status)
    ensures WellFormed(s) ==> WellFormed(r.store)
    ensures StatusesKnown(s) ==> StatusesKnown(r.store)
  {
    var look := LookupKey(u.status);
    assert look.Member? ==> look.value in Values by {
      if look.Member? {
        var st :| st in All && Key(st) == u.status && look.value == Value(st);
      }
    }
    UpdateWith(s, u, look)
  }

  /** `updateOrder` with the orders enum given the DELIVERED_INGREDIENTS key
      the warehouse publishes, under the kitchen's display string for it. */
  function ApplyUpdateIntended(s: Orders, u: Dto.UpdateOrder): (r: Stored<Order>)
    ensures u.id in s.rows && u.status == "DELIVERED_INGREDIENTS" ==>
      r.reply == Success(200, Order(s.rows[u.id].id, Some(u.recipeId), "Ingredientes entregados a cocina"))
    ensures u.status != "DELIVERED_INGREDIENTS" ==> r == ApplyUpdate(s, u)
    ensures r.reply.Success? ==> u.id in s.rows && r.store.rows == s.rows[u.id := r.reply.data]
    ensures WellFormed(s) ==> WellFormed(r.store)
  {
    UpdateWith(s, u, LookupKeyIntended(u.status))
  }

  /** Applying the same update twice leaves the table as applying it once. */
  lemma UpdateIdempotent(s: Orders, u: Dto.UpdateOrder)
    ensures ApplyUpdate(ApplyUpdate(s, u).store, u).store == ApplyUpdate(s, u).store
  {
  }

  /** An update only touches the row it names. */
  lemma UpdateFrame(s: Orders, u: Dto.UpdateOrder, id: int)
    requires id in s.rows && id != u.id
    ensures id in ApplyUpdate(s, u).store.rows && ApplyUpdate(s, u).store.rows[id] == s.rows[id]
  {
  }

  /** The status the warehouse publishes when it has served an order,
      DELIVERED_INGREDIENTS, is no key of the orders enum: the update stores
      the recipe id and leaves the status as it was. */
  lemma DeliveredKeepsStatus(s: Orders, id: int, recipeId: int)
    requires id in s.rows
    ensures var r := ApplyUpdate(s, Dto.UpdateOrder(id, recipeId, "DELIVERED_INGREDIENTS"));
      && r.reply.Success?
      && r.reply.data.status == s.rows[id].status
      && r.reply.data.recipeId == Some(recipeId)
  {
    Keys();
  }

  /** Every created order starts with the RECEIVED display string, which is
      the same string in the kitchen's enum. */
  lemma CreatedReceived(s: Orders, kitchen: Rpc<Json>)
    requires WellFormed(s)
    ensures var r := CreateNewOrder(s, kitchen);
      r.store.rows[s.nextId].status == Value(Received) == "Recibida y enviada a cocina"
  {
  }
}

=== FILE: orders_controller.dfy ===
/** The orders consumer: the routing-key table, dispatch and
    acknowledgement, and the gates in front of `updateOrder` and
    `getOrderById`. */
module OrdersController {
  import opened Base
  import opened Broker
  import opened Dto
  import opened OrdersStatus
  import opened OrdersService

  datatype Route = Create | Update | List | ById

  /** The handler table: four keys. */
  const Handlers: map<string, Route> := map[
    "orders.create.newOrder" := Create,
    "orders.update.order" := Update,
    "orders.get.orders" := List,
    "orders.get.orderById" := ById]

  /** The keys `orders_queue` is bound under on `orders_exchange`. */
  const Bindings: seq<string> := [
    "orders.create.newOrder",
    "orders.update.order",
    "orders.get.orders",
    "orders.get.orderById"]

  /** The data of the orders service's replies. */
  datatype Data =
    | NewOrder(created: Created)
    | AllOrders(orders: seq<Order>)
    | OneOrder(order: Order)

  /** A service call whose reply is sent back. */
  function Answer<D>(s: Stored<D>, f: D -> Data): Handled<Orders, Data> {
    Handled(s.store, Some(MapReply(s.reply, f)), [], s.rpc, 0, false)
  }

  /** `handleUpdateOrder`: the body must pass `UpdateOrderDto` before the
      service runs. */
  function HandleUpdate(s: Orders, payload: Json): Handled<Orders, Data> {
    match ValidateUpdateOrder(payload)
    case Threw => Handled(s, None, [], [], 0, true)
    case Checked(data, errors) =>
      if |errors| > 0 then Returned(s, Some(Invalid(errors)), [])
      else if data.None? then Returned(s, Some(Invalid(["Invalid data"])), [])
      else Answer(ApplyUpdate(s, data.value), o => OneOrder(o))
  }

  /** `handleGetOrderById`: `payload.id` throws on a null body; a falsy id
      is answered with an error and no lookup; an id the database cannot
      take (not an integer) makes the query throw, which the service answers
      with 400. */
  function HandleById(s: Orders, payload: Json): Handled<Orders, Data> {
    var id := Field(payload, "id");
    if payload == JNull then Handled(s, None, [], [], 0, true)
    else if !Truthy(id) then Returned(s, Some(Invalid(["Invalid id"])), [])
    else if IsWhole(id) then Returned(s, Some(MapReply(GetOrderById(s, WholeValue(id)), o => OneOrder(o))), [])
    else Returned(s, Some(Failure(400)), [])
  }

  function Handle(route: Route, s: Orders, payload: Json, kitchen: Rpc<Json>): Handled<Orders, Data>
    requires WellFormed(s)
  {
    match route
    case Create => Answer(CreateNewOrder(s, kitchen), c => NewOrder(c))
    case Update => HandleUpdate(s, payload)
    case List => Returned(s, Some(MapReply(GetOrders(s), os => AllOrders(os))), [])
    case ById => HandleById(s, payload)
  }

  /** The consume callback: look the routing key up, run its handler, ack.
      `kitchen` is what the kitchen answers if the message creates an
      order. */
  function Consume(s: Orders, d: Delivery, kitchen: Rpc<Json>): Outcome<Orders, Data>
    requires WellFormed(s)
  {
    Settle(d.props, s, if d.routingKey in Handlers then Some(Handle(Handlers[d.routingKey], s, d.payload, kitchen)) else None)
  }

  /** The table has four keys, and the queue is bound under exactly them. */
  lemma HandlerTable()
    ensures |Handlers| == 4
    ensures forall key :: key in Bindings <==> key in Handlers
  {
    assert Handlers.Keys == {"orders.create.newOrder", "orders.update.order", "orders.get.orders", "orders.get.orderById"};
  }

  /** A delivery under a key with no handler changes nothing, sends
      nothing, and is acknowledged once. */
  lemma UnregisteredKeyAcked(s: Orders, d: Delivery, kitchen: Rpc<Json>)
    requires WellFormed(s)
    requires d.routingKey !in Handlers
    ensures Consume(s, d, kitchen) == Outcome(s, None, [], [], [], 1)
  {
  }

  /** A create message is answered with the service's reply as written: a
      kitchen that answers at all, even with `{success: false}`, gets the
      order reported as created with 200, and the row is stored. */
  lemma CreateAnswersAnyKitchenReply(s: Orders, props: Properties, payload: Json, kitchen: Json)
    requires WellFormed(s)
    ensures var o := Consume(s, Delivery("orders.create.newOrder", props, payload), Replied(kitchen));
      && o.responded == Some(Success(200, NewOrder(Created(Order(s.nextId, None, OrdersStatus.Value(OrdersStatus.Received)), Some(kitchen)))))
      && s.nextId in o.store.rows
      && o.acks == 1
  {
  }

  /** An update body that fails validation is answered with the failures
      and the table is not touched. */
  lemma InvalidUpdateRejected(s: Orders, d: Delivery, kitchen: Rpc<Json>)
    requires WellFormed(s)
    requires d.routingKey == "orders.update.order"
    requires ValidateUpdateOrder(d.payload).Checked? && |ValidateUpdateOrder(d.payload).errors| > 0
    ensures var o := Consume(s, d, kitchen);
      o.responded == Some(Invalid(ValidateUpdateOrder(d.payload).errors)) && o.store == s && o.acks == 1
  {
  }

  /** A get-by-id body without a truthy id is answered `Invalid id`, with
      no lookup. */
  lemma MissingIdRejected(s: Orders, d: Delivery, kitchen: Rpc<Json>)
    requires WellFormed(s)
    requires d.routingKey == "orders.get.orderById" && d.payload != JNull
    requires !Truthy(Field(d.payload, "id"))
    ensures var o := Consume(s, d, kitchen);
      o.responded == Some(Invalid(["Invalid id"])) && o.store == s && o.rpc == [] && o.acks == 1
  {
  }

  /** Every handled message that does not crash the handler gets exactly
      one `sendResponse` call and one acknowledgement, and nothing is
      published one way; only a null body for the two handlers that read
      it crashes, and then there is no reply and no acknowledgement. */
  lemma OneResponsePerMessage(s: Orders, d: Delivery, kitchen: Rpc<Json>)
    requires WellFormed(s)
    requires d.routingKey in Handlers
    ensures var o := Consume(s, d, kitchen);
      var crashes := d.payload == JNull && Handlers[d.routingKey] in {Update, ById};
      && o.outbox == []
      && (crashes ==> o.responded.None? && o.acks == 0 && o.store == s)
      && (!crashes ==> o.responded.Some? && o.acks == 1 && o.sent == SendResponse(d.props, o.responded.value))
  {
  }

  /** The table stays well formed and every stored status stays a display
      string of the orders enum, whatever message arrives. */
  lemma ConsumeKeepsStatusesKnown(s: Orders, d: Delivery, kitchen: Rpc<Json>)
    requires WellFormed(s) && StatusesKnown(s)
    ensures WellFormed(Consume(s, d, kitchen).store)
    ensures StatusesKnown(Consume(s, d, kitchen).store)
  {
  }
}

=== FILE: saga.dfy ===
/** How the three services' decisions fit together along an order's
    life: the two status enums the services share display strings through,
    the bodies each service publishes for another, and where the exchange
    of statuses stops. */
module Saga {
  import opened Base
  import opened Broker
  import opened Dto
  import KitchenStatus
  import OrdersStatus
  import opened WarehouseData
  import opened Market
  import opened WarehouseService
  import WarehouseController
  import opened KitchenService
  import KitchenController
  import opened OrdersService

  /** The kitchen and orders enums agree on the display strings of
      RECEIVED, REQUESTING_INGREDIENTS and PREPARING, and disagree on
      WAITING_FOR_INGREDIENTS and COMPLETED; the kitchen's
      DELIVERED_INGREDIENTS string is not an orders string at all. */
  lemma SharedDisplayStrings()
    ensures KitchenStatus.Value(KitchenStatus.Received) == OrdersStatus.Value(OrdersStatus.Received)
    ensures KitchenStatus.Value(KitchenStatus.RequestingIngredients) == OrdersStatus.Value(OrdersStatus.RequestingIngredients)
    ensures KitchenStatus.Value(KitchenStatus.Preparing) == OrdersStatus.Value(OrdersStatus.Preparing)
    ensures KitchenStatus.Value(KitchenStatus.WaitingForIngredients) != OrdersStatus.Value(OrdersStatus.WaitingForIngredients)
    ensures KitchenStatus.Value(KitchenStatus.Completed) != OrdersStatus.Value(OrdersStatus.Completed)
    ensures KitchenStatus.Value(KitchenStatus.DeliveredIngredients) !in OrdersStatus.Values
  {
    var d := KitchenStatus.Value(KitchenStatus.DeliveredIngredients);
    forall s | s in OrdersStatus.All
      ensures OrdersStatus.Value(s) != d
    {
      assert |OrdersStatus.Value(s)| != |d|;
    }
  }

  /** No display string an order can be stored with is the literal key
      "COMPLETED". */
  lemma CompletedIsNoDisplayString()
    ensures "COMPLETED" !in OrdersStatus.Values
  {
    forall s | s in OrdersStatus.All
      ensures OrdersStatus.Value(s) != "COMPLETED"
    {
      assert |OrdersStatus.Value(s)| != 9;
    }
  }

  /** Nor is the literal key "PREPARING". */
  lemma PreparingIsNoDisplayString()
    ensures "PREPARING" !in OrdersStatus.Values
  {
    forall s | s in OrdersStatus.All
      ensures OrdersStatus.Value(s) != "PREPARING"
    {
      assert |OrdersStatus.Value(s)| != 9;
    }
  }

  /** The kitchen reads an order whose status is an orders display string:
      the only move it can make is PREPARING to COMPLETED. It never
      publishes PREPARING, because the DELIVERED_INGREDIENTS string it waits
      for is never stored. */
  lemma StoredOrderNeverPrepared(orderId: Json, o: Order, status: int)
    requires o.status in OrdersStatus.Values
    ensures var r := CheckAndAdvance(orderId, Replied(Success(status, o)));
      && (r.outbox != [] <==> o.status == OrdersStatus.Value(OrdersStatus.Preparing))
      && (r.outbox != [] ==> r.reply.data.status == "COMPLETED")
      && r.reply.data.status != "PREPARING"
  {
    SharedDisplayStrings();
    var preparing := KitchenStatus.Value(KitchenStatus.Preparing);
    assert o.status != KitchenStatus.Value(KitchenStatus.DeliveredIngredients);
    assert Advances(o.status) <==> o.status == preparing;
    if o.status == preparing {
      AdvanceMoves(orderId, o, status);
    } else {
      PreparingIsNoDisplayString();
    }
  }

  /** For an order stored by the orders service, the kitchen schedules
      another verification after every successful check except the one
      that publishes COMPLETED: the echoed status is never the literal
      "COMPLETED". */
  lemma VerificationStopsOnlyAtCompletion(orderId: Json, o: Order, status: int)
    requires o.status in OrdersStatus.Values
    ensures var r := CheckAndAdvance(orderId, Replied(Success(status, o)));
      KitchenController.Reschedules(r.reply) <==> o.status != OrdersStatus.Value(OrdersStatus.Preparing)
  {
    StoredOrderNeverPrepared(orderId, o, status);
    CompletedIsNoDisplayString();
  }

  /** WAITING_FOR_INGREDIENTS is a key of the orders enum, whose display
      string is "Esperando ingredientes". */
  lemma WaitingKey()
    ensures OrdersStatus.LookupKey("WAITING_FOR_INGREDIENTS") == OrdersStatus.Member("Esperando ingredientes")
  {
    var key := "WAITING_FOR_INGREDIENTS";
    assert OrdersStatus.Key(OrdersStatus.WaitingForIngredients) == key;
    assert OrdersStatus.WaitingForIngredients in OrdersStatus.All;
    forall st | st in OrdersStatus.All && OrdersStatus.Key(st) == key
      ensures st == OrdersStatus.WaitingForIngredients
    {
      assert |OrdersStatus.Key(st)| == 23;
    }
  }

  /** PREPARING is a key of the orders enum, with the same display string
      as in the kitchen's. */
  lemma PreparingKey()
    ensures OrdersStatus.LookupKey("PREPARING") == OrdersStatus.Member(KitchenStatus.Value(KitchenStatus.Preparing))
  {
    var key := "PREPARING";
    assert OrdersStatus.Key(OrdersStatus.Preparing) == key;
    assert OrdersStatus.Preparing in OrdersStatus.All;
    forall st | st in OrdersStatus.All && OrdersStatus.Key(st) == key
      ensures st == OrdersStatus.Preparing
    {
      assert |OrdersStatus.Key(st)| == 9;
    }
  }

  /** With DELIVERED_INGREDIENTS a key of the orders enum, the kitchen's
      check after the warehouse's update publishes PREPARING and schedules
      another check. */
  lemma DeliveredGetsPrepared(s: Orders, id: int, recipeId: int, orderId: Json, status: int)
    requires id in s.rows
    ensures
      var delivered := ApplyUpdateIntended(s, Dto.UpdateOrder(id, recipeId, "DELIVERED_INGREDIENTS")).store;
      && id in delivered.rows
      && var check := CheckAndAdvance(orderId, Replied(Success(status, delivered.rows[id])));
      && check.reply == Success(200, Advance(s.rows[id].id, Some(recipeId), "PREPARING"))
      && KitchenController.Reschedules(check.reply)
  {
    var delivered := ApplyUpdateIntended(s, Dto.UpdateOrder(id, recipeId, "DELIVERED_INGREDIENTS")).store;
    assert delivered.rows[id].status == KitchenStatus.Value(KitchenStatus.DeliveredIngredients);
    AdvanceMoves(orderId, delivered.rows[id], status);
  }

  /** Once PREPARING is stored, the kitchen's next check publishes
      COMPLETED and schedules no further check. */
  lemma PreparingGetsCompleted(s: Orders, id: int, recipeId: int, orderId: Json, status: int)
    requires id in s.rows
    ensures
      var preparing := ApplyUpdateIntended(s, Dto.UpdateOrder(id, recipeId, "PREPARING")).store;
      && id in preparing.rows
      && var check := CheckAndAdvance(orderId, Replied(Success(status, preparing.rows[id])));
      && check.reply == Success(200, Advance(s.rows[id].id, Some(recipeId), "COMPLETED"))
      && !KitchenController.Reschedules(check.reply)
  {
    PreparingKey();
    var preparing := ApplyUpdateIntended(s, Dto.UpdateOrder(id, recipeId, "PREPARING")).store;
    assert preparing.rows[id].status == KitchenStatus.Value(KitchenStatus.Preparing);
    AdvanceMoves(orderId, preparing.rows[id], status);
  }

  /** With DELIVERED_INGREDIENTS a key of the orders enum, the saga runs to
      its end: the warehouse's update, the kitchen's PREPARING and its
      COMPLETED follow one another, and the checks stop there. */
  lemma IntendedSagaCompletes(s: Orders, id: int, recipeId: int, orderId: Json, status: int)
    requires id in s.rows
    ensures
      var delivered := ApplyUpdateIntended(s, Dto.UpdateOrder(id, recipeId, "DELIVERED_INGREDIENTS")).store;
      var preparing := ApplyUpdateIntended(delivered, Dto.UpdateOrder(id, recipeId, "PREPARING")).store;
      && id in preparing.rows
      && CheckAndAdvance(orderId, Replied(Success(status, preparing.rows[id]))).reply
        == Success(200, Advance(s.rows[id].id, Some(recipeId), "COMPLETED"))
  {
    DeliveredGetsPrepared(s, id, recipeId, orderId, status);
    var delivered := ApplyUpdateIntended(s, Dto.UpdateOrder(id, recipeId, "DELIVERED_INGREDIENTS")).store;
    PreparingGetsCompleted(delivered, id, recipeId, orderId, status);
  }

  /** A warehouse order update passes the orders validation with the
      request's ids and the status key it names. */
  lemma WarehouseUpdateValidates(req: IngredientsRequest, status: string)
    ensures ValidateUpdateOrder(OrderUpdate(req, status).body)
      == Checked(Some(Dto.UpdateOrder(req.orderId, req.recipeId, status)), [])
  {
    OrderUpdateRoundTrip(Num(req.orderId), Num(req.recipeId), status);
  }

  /** Once the warehouse has to wait for the market, the order is stored
      with the orders string "Esperando ingredientes" and the recipe id. */
  lemma WaitingUpdateApplied(s: Orders, req: IngredientsRequest)
    requires req.orderId in s.rows
    ensures ApplyUpdate(s, Dto.UpdateOrder(req.orderId, req.recipeId, "WAITING_FOR_INGREDIENTS")).reply
      == Success(200, Order(s.rows[req.orderId].id, Some(req.recipeId), "Esperando ingredientes"))
  {
    WaitingKey();
  }

  /** Once the warehouse has served the order, the update stores the recipe
      id and leaves the status as it was. */
  lemma DeliveredUpdateApplied(s: Orders, req: IngredientsRequest)
    requires req.orderId in s.rows
    ensures ApplyUpdate(s, Dto.UpdateOrder(req.orderId, req.recipeId, "DELIVERED_INGREDIENTS")).reply
      == Success(200, Order(s.rows[req.orderId].id, Some(req.recipeId), s.rows[req.orderId].status))
  {
    DeliveredKeepsStatus(s, req.orderId, req.recipeId);
  }

  /** The reservation request the kitchen publishes for a drawn recipe is
      accepted by the warehouse exactly when every quantity of the recipe
      is at least 1, and is then read back as exactly the recipe's lines. */
  lemma KitchenRequestAccepted(orderId: int, x: Recipe)
    ensures var v := ValidateIngredientsRequest(WarehouseRequest(Num(orderId), x).body);
      && v.Checked?
      && (v.data.Some? <==> forall i :: 0 <= i < |x.ingredients| ==> x.ingredients[i].quantity >= 1)
      && (v.data.Some? ==> v.data.value == IngredientsRequest(orderId, x.id, x.ingredients))
  {
    IngredientsRequestRoundTrip(orderId, x.id, x.ingredients);
  }

  /** The kitchen's view of the warehouse's `warehouse.get.ingredient.byId`
      consumer: for id 0 (falsy) the consumer sends nothing and the call
      times out; otherwise the reply is `getIngredientById`'s. */
  function WarehouseLookup(w: Warehouse): Lookup {
    id => if id == 0 then TimedOut else Replied(GetIngredientById(w, id))
  }

  /** The warehouse consumer does answer every non-zero id with
      `getIngredientById`, and nothing for id 0. */
  lemma WarehouseLookupMatchesConsumer(w: Warehouse, id: int)
    ensures var h := WarehouseController.HandleIngredientById(w, JObj(map["id" := Num(id)]));
      && (id == 0 <==> h.responded.None?)
      && (id != 0 ==> h.responded == Some(MapReply(GetIngredientById(w, id), i => WarehouseController.OneIngredient(i))))
  {
    assert Field(JObj(map["id" := Num(id)]), "id") == Some(Num(id));
  }

  /** The warehouse answers for an ingredient exactly when its id is not 0
      and it is in stock records, and then with that ingredient's name and
      image. */
  lemma WarehouseFound(w: Warehouse, id: int)
    ensures Found(WarehouseLookup(w), id) <==> id != 0 && id in w.ingredients
    ensures Found(WarehouseLookup(w), id) ==> WarehouseLookup(w)(id).reply.data == RefOf(w.ingredients[id])
    ensures WarehouseLookup(w)(id).TimedOut? <==> id == 0
  {
  }

  /** A recipe shown against a warehouse has no ingredient id 0: that id
      makes the whole call fail. */
  lemma ShownRecipeHasNoZeroId(k: Kitchen, id: int, w: Warehouse)
    requires GetRecipeById(k, id, WarehouseLookup(w)).reply.Success?
    ensures forall l :: l in FindRecipe(k.recipes, id).value.ingredients ==> l.ingredientId != 0
  {
    var x := FindRecipe(k.recipes, id).value;
    forall l | l in x.ingredients
      ensures l.ingredientId != 0
    {
      var i :| 0 <= i < |x.ingredients| && x.ingredients[i] == l;
      WarehouseFound(w, l.ingredientId);
    }
  }

  /** A recipe shown against a warehouse lists exactly the recipe's lines
      whose ingredient the warehouse has, each with the warehouse's name and
      image. */
  lemma RecipeShownFromWarehouse(k: Kitchen, id: int, w: Warehouse)
    requires FiledById(w.ingredients)
    requires GetRecipeById(k, id, WarehouseLookup(w)).reply.Success?
    ensures var x := FindRecipe(k.recipes, id).value;
      var shown := GetRecipeById(k, id, WarehouseLookup(w)).reply.data.ingredients;
      && (forall p :: p in shown ==>
            p.id in w.ingredients && p.name == w.ingredients[p.id].name && p.image == w.ingredients[p.id].image)
      && (forall l :: l in Lines(shown) <==> l in x.ingredients && l.ingredientId in w.ingredients)
  {
    var x := FindRecipe(k.recipes, id).value;
    var lookup := WarehouseLookup(w);
    GatherFound(x.ingredients, lookup);
    ShownRecipeHasNoZeroId(k, id, w);
    GatherTimeout(x.ingredients, lookup);
    GatherKeepsFound(x.ingredients, lookup);
    var shown := Gather(x.ingredients, lookup).found;
    forall p | p in shown
      ensures p.id in w.ingredients && p.name == w.ingredients[p.id].name && p.image == w.ingredients[p.id].image
    {
      WarehouseFound(w, p.id);
    }
    SubsequenceMembers(Lines(shown), x.ingredients);
    forall l | l in Lines(shown)
      ensures l.ingredientId in w.ingredients
    {
      var i :| 0 <= i < |Lines(shown)| && Lines(shown)[i] == l;
      assert shown[i] in shown;
    }
    forall l | l in x.ingredients && l.ingredientId in w.ingredients
      ensures l in Lines(shown)
    {
      WarehouseFound(w, l.ingredientId);
    }
  }

  /** Every element of a subsequence is an element of the whole. */
  lemma {:induction false} SubsequenceMembers<T>(a: seq<T>, b: seq<T>)
    requires IsSubsequence(a, b)
    ensures forall v :: v in a ==> v in b
  {
    if a != [] && b != [] {
      if a[0] == b[0] {
        SubsequenceMembers(a[1..], b[1..]);
        assert forall v :: v in a ==> v == a[0] || v in a[1..];
      } else {
        SubsequenceMembers(a, b[1..]);
      }
    }
  }
}

=== FILE: warehouse.dfy ===
/** The warehouse service: ingredient look-up and the reservation engine
    (`ingredientsRequest`), which classifies each requested line against
    stock, buys from the market when stock is short, and then either
    delivers (publishing DELIVERED_INGREDIENTS and decrementing stock) or
    reports waiting (publishing WAITING_FOR_INGREDIENTS). */
module WarehouseService {
  import opened Base
  import opened Broker
  import opened Dto
  import opened WarehouseData
  import opened Market

  /** `getIngredients`: every ingredient with its stock. */
  function GetIngredients(w: Warehouse): (r: Reply<set<Ingredient>>)
    ensures r.Success? && r.status == 200
    ensures forall i :: i in r.data <==> exists k :: k in w.ingredients && w.ingredients[k] == i
  {
    Success(200, set k | k in w.ingredients :: w.ingredients[k])
  }

  /** `getIngredientById`: 404 for an unknown id, otherwise the ingredient. */
  function GetIngredientById(w: Warehouse, id: int): (r: Reply<IngredientRef>)
    ensures r.Failure? <==> id !in w.ingredients
    ensures r.Failure? ==> r.status == 404
    ensures r.Success? ==> r.status == 200 && r.data == RefOf(w.ingredients[id])
    ensures !r.Invalid?
  {
    if id !in w.ingredients then Failure(404) else Success(200, RefOf(w.ingredients[id]))
  }

  // -------------------------------------------------- reservation engine

  datatype Availability = Available | NotAvailable

  /** An entry of `resultSummary`. */
  datatype SummaryEntry = SummaryEntry(ingredientId: int, quantity: int, status: Availability)

  /** The state of the classification loop: the database so far, the
      summary so far, and the market queries made so far. */
  datatype Scan = Scan(store: Warehouse, summary: seq<SummaryEntry>, queries: seq<string>)

  /** `resultSummary.every(item => item.status === "AVAILABLE")` */
  predicate AllAvailable(summary: seq<SummaryEntry>) {
    forall i :: 0 <= i < |summary| ==> summary[i].status == Available
  }

  /** Stock only ever goes up from `a` to `b`, and nothing else changes
      but the purchase log, which only grows. */
  ghost predicate Grows(a: Warehouse, b: Warehouse) {
    && a.ingredients.Keys == b.ingredients.Keys
    && (forall k :: k in a.ingredients ==> a.ingredients[k].(stock := b.ingredients[k].stock) == b.ingredients[k])
    && (forall k :: StockOf(a, k).Some? ==> StockOf(b, k).Some? && StockOf(b, k).value >= StockOf(a, k).value)
    && (forall k :: StockOf(a, k).None? ==> StockOf(b, k).None?)
    && |a.history| <= |b.history| && b.history[..|a.history|] == a.history
  }

  /** One pass of the loop body for a known ingredient. Its stock is read
      once; a sufficient stock marks the line AVAILABLE; a short one calls
      the market and, when something was bought, increments stock by that
      amount and re-checks the quantity read before the purchase, so the
      line is marked NOT_AVAILABLE; nothing bought adds no entry; an
      ingredient without a stock row adds no entry either. */
  function Classify(st: Scan, line: Line, reply: MarketReply): (r: Scan)
    requires line.ingredientId in st.store.ingredients
    ensures Grows(st.store, r.store)
    ensures |st.summary| <= |r.summary| <= |st.summary| + 1
    ensures r.summary[..|st.summary|] == st.summary
    ensures |st.queries| <= |r.queries| <= |st.queries| + 1
    ensures r.queries[..|st.queries|] == st.queries
    ensures forall k :: k != line.ingredientId ==> StockOf(r.store, k) == StockOf(st.store, k)
    ensures WellFormed(st.store) ==> WellFormed(r.store)
  {
    var ing := st.store.ingredients[line.ingredientId];
    match ing.stock
    case None => st
    case Some(q) =>
      if q >= line.quantity then
        st.(summary := st.summary + [SummaryEntry(line.ingredientId, line.quantity, Available)])
      else
        var b := Buy(st.store.history, ing.id, ing.name, reply);
        var afterCall := st.(store := st.store.(history := b.history), queries := st.queries + [b.query]);
        if b.amount > 0 then
          var restocked := AddStock(afterCall.store, line.ingredientId, b.amount);
          var status := if q >= line.quantity then Available else NotAvailable;
          afterCall.(store := restocked, summary := afterCall.summary + [SummaryEntry(line.ingredientId, line.quantity, status)])
        else
          afterCall
  }

  /** The four ways one line can go, as the source's comparisons decide. */
  lemma ClassifyCases(st: Scan, line: Line, reply: MarketReply)
    requires line.ingredientId in st.store.ingredients
    ensures var ing := st.store.ingredients[line.ingredientId];
      var r := Classify(st, line, reply);
      && (ing.stock.None? ==> r == st)
      && (ing.stock.Some? && ing.stock.value >= line.quantity ==>
            && r.store == st.store && r.queries == st.queries
            && r.summary == st.summary + [SummaryEntry(line.ingredientId, line.quantity, Available)])
      && (ing.stock.Some? && ing.stock.value < line.quantity ==>
            var b := Buy(st.store.history, ing.id, ing.name, reply);
            && r.queries == st.queries + [Lower(ing.name)]
            && r.store.history == b.history
            && (b.amount > 0 ==>
                  && StockOf(r.store, line.ingredientId) == Some(ing.stock.value + b.amount)
                  && r.summary == st.summary + [SummaryEntry(line.ingredientId, line.quantity, NotAvailable)])
            && (b.amount == 0 ==>
                  && StockOf(r.store, line.ingredientId) == ing.stock
                  && r.summary == st.summary))
  {
  }

  /** The loop body with the re-check a purchase evidently calls for: after
      buying, the line is AVAILABLE exactly when the restocked quantity
      covers it. Everything else is as in `Classify`. */
  function ClassifyIntended(st: Scan, line: Line, reply: MarketReply): (r: Scan)
    requires line.ingredientId in st.store.ingredients
    ensures var c := Classify(st, line, reply);
      r.store == c.store && r.queries == c.queries && |r.summary| == |c.summary|
    ensures |r.summary| == |st.summary| + 1 ==>
      && r.summary[..|st.summary|] == st.summary
      && r.summary[|st.summary|].ingredientId == line.ingredientId
      && r.summary[|st.summary|].quantity == line.quantity
      && (r.summary[|st.summary|].status == Available <==> StockOf(r.store, line.ingredientId).value >= line.quantity)
  {
    var c := Classify(st, line, reply);
    ClassifyCases(st, line, reply);
    var ing := st.store.ingredients[line.ingredientId];
    if ing.stock.Some? && ing.stock.value < line.quantity && |c.summary| > |st.summary| then
      var enough := StockOf(c.store, line.ingredientId).value >= line.quantity;
      c.(summary := st.summary + [SummaryEntry(line.ingredientId, line.quantity, if enough then Available else NotAvailable)])
    else
      c
  }

  /** A purchase that covers the shortfall still leaves the line
      NOT_AVAILABLE as written, because the re-check reads the quantity
      from before the purchase; with the intended re-check it is AVAILABLE. */
  lemma PurchaseNotCounted(st: Scan, line: Line, reply: MarketReply)
    requires line.ingredientId in st.store.ingredients
    requires var ing := st.store.ingredients[line.ingredientId];
      && ing.stock.Some? && ing.stock.value < line.quantity
      && line.quantity <= ing.stock.value + Buy(st.store.history, ing.id, ing.name, reply).amount
    ensures var entry := SummaryEntry(line.ingredientId, line.quantity, NotAvailable);
      Classify(st, line, reply).summary == st.summary + [entry]
    ensures var entry := SummaryEntry(line.ingredientId, line.quantity, Available);
      ClassifyIntended(st, line, reply).summary == st.summary + [entry]
  {
    ClassifyCases(st, line, reply);
  }

  /** The result of the classification loop: the state reached, and whether
      it stopped at an unknown ingredient. */
  datatype Pass = Pass(scan: Scan, missing: bool)

  /** The `for (const ingredient of ingredients)` loop from line `i` on; the
      market reply for line `j` is `market(j)`. An unknown ingredient stops
      the loop with the state reached so far. */
  function ScanFrom(st: Scan, lines: seq<Line>, i: nat, market: nat -> MarketReply): (r: Pass)
    requires i <= |lines|
    ensures Grows(st.store, r.scan.store)
    ensures |st.summary| <= |r.scan.summary| && r.scan.summary[..|st.summary|] == st.summary
    ensures |st.queries| <= |r.scan.queries| && r.scan.queries[..|st.queries|] == st.queries
    ensures r.missing <==> exists j :: i <= j < |lines| && lines[j].ingredientId !in st.store.ingredients
    ensures WellFormed(st.store) ==> WellFormed(r.scan.store)
    decreases |lines| - i
  {
    if i == |lines| then Pass(st, false)
    else if lines[i].ingredientId !in st.store.ingredients then Pass(st, true)
    else ScanFrom(Classify(st, lines[i], market(i)), lines, i + 1, market)
  }

  /** The total quantity the lines request of ingredient `k`. */
  function Requested(lines: seq<Line>, k: int): int {
    if lines == [] then 0
    else (if lines[0].ingredientId == k then lines[0].quantity else 0) + Requested(lines[1..], k)
  }

  /** The decrement loop: each line's quantity comes off its ingredient's
      stock row, one update per line, with no lower bound. */
  function TakeStock(w: Warehouse, lines: seq<Line>): (r: Warehouse)
    ensures r.ingredients.Keys == w.ingredients.Keys && r.history == w.history
    ensures forall k :: StockOf(w, k).None? ==> StockOf(r, k).None?
    ensures forall k :: StockOf(w, k).Some? ==> StockOf(r, k) == Some(StockOf(w, k).value - Requested(lines, k))
    ensures WellFormed(w) ==> WellFormed(r)
    decreases |lines|
  {
    if lines == [] then w else TakeStock(AddStock(w, lines[0].ingredientId, -lines[0].quantity), lines[1..])
  }

  /** The `orders.update.order` publish for this request. */
  function OrderUpdate(req: IngredientsRequest, status: string): Envelope {
    Envelope("orders_exchange", "orders.update.order", OrderUpdateJson(Num(req.orderId), Num(req.recipeId), status))
  }

  /** What `ingredientsRequest` produced: the reply, the database afterwards,
      the publishes, and the market queries made. */
  datatype Reservation = Reservation(reply: Reply<bool>, store: Warehouse, outbox: seq<Envelope>, queries: seq<string>)

  function Start(w: Warehouse): Scan {
    Scan(w, [], [])
  }

  /** `ingredientsRequest` */
  function Reserve(w: Warehouse, req: IngredientsRequest, market: nat -> MarketReply): (r: Reservation)
    ensures Grows(w, ScanFrom(Start(w), req.ingredients, 0, market).scan.store)
    ensures !r.reply.Invalid?
  {
    var pass := ScanFrom(Start(w), req.ingredients, 0, market);
    if pass.missing then
      Reservation(Failure(404), pass.scan.store, [], pass.scan.queries)
    else if AllAvailable(pass.scan.summary) then
      Reservation(
        Success(200, true),
        TakeStock(pass.scan.store, req.ingredients),
        [OrderUpdate(req, "DELIVERED_INGREDIENTS")],
        pass.scan.queries)
    else
      Reservation(
        Success(200, false),
        pass.scan.store,
        [OrderUpdate(req, "WAITING_FOR_INGREDIENTS")],
        pass.scan.queries)
  }

  /** The state the classification loop ends in. */
  function Scanned(w: Warehouse, req: IngredientsRequest, market: nat -> MarketReply): Pass {
    ScanFrom(Start(w), req.ingredients, 0, market)
  }

  /** An unknown ingredient anywhere in the request gives 404 and nothing
      else: no order update is published and no stock is taken; purchases
      made for earlier lines stay recorded. Every other request is answered
      200 with `data` the summary's `allAvailable`. */
  lemma {:induction false} RequestReply(w: Warehouse, req: IngredientsRequest, market: nat -> MarketReply)
    ensures var r := Reserve(w, req, market);
      && (r.reply == Failure(404) <==> exists j :: 0 <= j < |req.ingredients| && req.ingredients[j].ingredientId !in w.ingredients)
      && (r.reply == Failure(404) ==> r.outbox == [] && Grows(w, r.store))
      && (!r.reply.Failure? ==> r.reply == Success(200, AllAvailable(Scanned(w, req, market).scan.summary)))
  {
  }

  /** Exactly one order update is published per answered request: on
      success DELIVERED_INGREDIENTS, and each line's quantity comes off the
      stock the loop left; otherwise WAITING_FOR_INGREDIENTS, and the stock
      is exactly as the loop left it. */
  lemma {:induction false} RequestPublishes(w: Warehouse, req: IngredientsRequest, market: nat -> MarketReply)
    requires (Reserve(w, req, market)).reply.Success?
    ensures var r := Reserve(w, req, market);
      var scanned := Scanned(w, req, market).scan.store;
      && (r.reply.data ==>
            && r.outbox == [OrderUpdate(req, "DELIVERED_INGREDIENTS")]
            && forall k :: StockOf(scanned, k).Some? ==>
                 StockOf(r.store, k) == Some(StockOf(scanned, k).value - Requested(req.ingredients, k)))
      && (!r.reply.data ==>
            && r.outbox == [OrderUpdate(req, "WAITING_FOR_INGREDIENTS")]
            && r.store == scanned)
  {
  }

  /** The market sold something in answer to this call. */
  predicate Sells(reply: MarketReply) {
    reply.Answered? && reply.quantitySold.Some? && reply.quantitySold.value > 0
  }

  /** A line that does not hold the request back: its ingredient has no
      stock row, or enough stock, or the market sold nothing for it (a
      purchase makes the line NOT_AVAILABLE; nothing bought adds no entry). */
  predicate Passes(w: Warehouse, l: Line, reply: MarketReply) {
    || StockOf(w, l.ingredientId).None?
    || StockOf(w, l.ingredientId).value >= l.quantity
    || !Sells(reply)
  }

  /** With no ingredient named twice, the loop's summary is all AVAILABLE
      exactly when every remaining line passes against the stock it starts
      from. */
  lemma {:induction false} ScanVerdict(st: Scan, lines: seq<Line>, i: nat, market: nat -> MarketReply)
    requires i <= |lines|
    requires forall m :: i <= m < |lines| ==> lines[m].ingredientId in st.store.ingredients
    requires forall m, n :: i <= m < n < |lines| ==> lines[m].ingredientId != lines[n].ingredientId
    ensures AllAvailable(ScanFrom(st, lines, i, market).scan.summary) <==>
      AllAvailable(st.summary) && forall m :: i <= m < |lines| ==> Passes(st.store, lines[m], market(m))
    decreases |lines| - i
  {
    if i < |lines| {
      var l := lines[i];
      var next := Classify(st, l, market(i));
      ClassifyCases(st, l, market(i));
      ScanVerdict(next, lines, i + 1, market);
      assert AllAvailable(next.summary) <==> AllAvailable(st.summary) && Passes(st.store, l, market(i)) by {
        if |next.summary| > |st.summary| {
          assert next.summary == st.summary + [next.summary[|st.summary|]];
        } else {
          assert next.summary == st.summary;
        }
      }
      forall m | i + 1 <= m < |lines|
        ensures Passes(next.store, lines[m], market(m)) == Passes(st.store, lines[m], market(m))
      {
        assert lines[m].ingredientId != l.ingredientId;
      }
    }
  }

  /** What `ingredientsRequest` answers, for every request whose ingredients
      all exist and are named once: `true` exactly when every line passes
      against the stock before the request. */
  lemma {:induction false} RequestAnswer(w: Warehouse, req: IngredientsRequest, market: nat -> MarketReply)
    requires forall m :: 0 <= m < |req.ingredients| ==> req.ingredients[m].ingredientId in w.ingredients
    requires forall m, n :: 0 <= m < n < |req.ingredients| ==> req.ingredients[m].ingredientId != req.ingredients[n].ingredientId
    ensures Reserve(w, req, market).reply ==
      Success(200, forall m :: 0 <= m < |req.ingredients| ==> Passes(w, req.ingredients[m], market(m)))
  {
    ScanVerdict(Start(w), req.ingredients, 0, market);
    RequestReply(w, req, market);
  }

  /** Every line sufficient in `st` keeps the loop from touching the
      database, calling the market, or adding anything but AVAILABLE. */
  lemma {:induction false} ScanSufficient(st: Scan, lines: seq<Line>, i: nat, market: nat -> MarketReply)
    requires i <= |lines|
    requires forall j :: i <= j < |lines| ==>
      StockOf(st.store, lines[j].ingredientId).Some? && StockOf(st.store, lines[j].ingredientId).value >= lines[j].quantity
    requires AllAvailable(st.summary)
    ensures var p := ScanFrom(st, lines, i, market);
      !p.missing && p.scan.store == st.store && p.scan.queries == st.queries && AllAvailable(p.scan.summary)
    decreases |lines| - i
  {
    if i < |lines| {
      var next := Classify(st, lines[i], market(i));
      ClassifyCases(st, lines[i], market(i));
      ScanSufficient(next, lines, i + 1, market);
    }
  }

  /** When every requested ingredient is in stock in sufficient quantity,
      the request is answered `true`, no market call is made, one
      DELIVERED_INGREDIENTS update is published, and each ingredient's
      stock drops by exactly the total requested of it. */
  lemma {:induction false} AllInStock(w: Warehouse, req: IngredientsRequest, market: nat -> MarketReply)
    requires forall j :: 0 <= j < |req.ingredients| ==>
      StockOf(w, req.ingredients[j].ingredientId).Some? &&
      StockOf(w, req.ingredients[j].ingredientId).value >= req.ingredients[j].quantity
    ensures var r := Reserve(w, req, market);
      && r.reply == Success(200, true)
      && r.queries == []
      && r.outbox == [OrderUpdate(req, "DELIVERED_INGREDIENTS")]
      && r.store.history == w.history
      && forall k :: StockOf(w, k).Some? ==> StockOf(r.store, k) == Some(StockOf(w, k).value - Requested(req.ingredients, k))
  {
    ScanSufficient(Start(w), req.ingredients, 0, market);
  }

  /** The loop leaves the stock of an ingredient that no remaining line
      names untouched. */
  lemma {:induction false} ScanFrame(st: Scan, lines: seq<Line>, i: nat, market: nat -> MarketReply, k: int)
    requires i <= |lines|
    requires forall j :: i <= j < |lines| ==> lines[j].ingredientId != k
    ensures StockOf(ScanFrom(st, lines, i, market).scan.store, k) == StockOf(st.store, k)
    decreases |lines| - i
  {
    if i < |lines| && lines[i].ingredientId in st.store.ingredients {
      ScanFrame(Classify(st, lines[i], market(i)), lines, i + 1, market, k);
    }
  }

  /** A line that is short when the loop reaches it, and for which the
      market sells something, ends the loop with a NOT_AVAILABLE entry and
      its stock raised by exactly the amount bought. */
  lemma {:induction false} ScanShortLine(st: Scan, lines: seq<Line>, j: nat, i: nat, market: nat -> MarketReply, q: int, sold: int)
    requires j <= i < |lines|
    requires forall m :: j <= m < |lines| ==> lines[m].ingredientId in st.store.ingredients
    requires forall m :: j <= m < |lines| && m != i ==> lines[m].ingredientId != lines[i].ingredientId
    requires StockOf(st.store, lines[i].ingredientId) == Some(q) && q < lines[i].quantity
    requires market(i) == Market.Answered(Some(sold)) && sold > 0
    ensures var p := ScanFrom(st, lines, j, market);
      && !p.missing
      && !AllAvailable(p.scan.summary)
      && StockOf(p.scan.store, lines[i].ingredientId) == Some(q + sold)
    decreases i - j
  {
    if j < i {
      var next := Classify(st, lines[j], market(j));
      assert lines[j].ingredientId != lines[i].ingredientId;
      assert StockOf(next.store, lines[i].ingredientId) == Some(q);
      ScanShortLine(next, lines, j + 1, i, market, q, sold);
    } else {
      ShortLineReached(st, lines, i, market, q, sold);
    }
  }

  /** The step of `ScanShortLine` at the short line itself. */
  lemma ShortLineReached(st: Scan, lines: seq<Line>, i: nat, market: nat -> MarketReply, q: int, sold: int)
    requires i < |lines|
    requires forall m :: i <= m < |lines| ==> lines[m].ingredientId in st.store.ingredients
    requires forall m :: i < m < |lines| ==> lines[m].ingredientId != lines[i].ingredientId
    requires StockOf(st.store, lines[i].ingredientId) == Some(q) && q < lines[i].quantity
    requires market(i) == Market.Answered(Some(sold)) && sold > 0
    ensures var p := ScanFrom(st, lines, i, market);
      && !p.missing
      && !AllAvailable(p.scan.summary)
      && StockOf(p.scan.store, lines[i].ingredientId) == Some(q + sold)
  {
    var l := lines[i];
    var ing := st.store.ingredients[l.ingredientId];
    assert Buy(st.store.history, ing.id, ing.name, market(i)).amount == sold;
    var next := Classify(st, l, market(i));
    ClassifyCases(st, l, market(i));
    assert next.summary == st.summary + [SummaryEntry(l.ingredientId, l.quantity, NotAvailable)];
    assert StockOf(next.store, l.ingredientId) == Some(q + sold);
    var p := ScanFrom(next, lines, i + 1, market);
    assert ScanFrom(st, lines, i, market) == p;
    assert p.scan.summary[|st.summary|] == next.summary[|st.summary|];
    ScanFrame(next, lines, i + 1, market, l.ingredientId);
  }

  /** With no ingredient requested twice, a line short in stock for which
      the market sells something makes the whole request wait: the reply
      is `false`, WAITING_FOR_INGREDIENTS is published, and the amount
      bought stays in stock (the re-check after the purchase reads the
      quantity from before it). */
  lemma {:induction false} ShortageWaits(w: Warehouse, req: IngredientsRequest, market: nat -> MarketReply, i: nat, sold: int)
    requires i < |req.ingredients|
    requires forall m :: 0 <= m < |req.ingredients| ==> req.ingredients[m].ingredientId in w.ingredients
    requires forall m, n :: 0 <= m < n < |req.ingredients| ==> req.ingredients[m].ingredientId != req.ingredients[n].ingredientId
    requires StockOf(w, req.ingredients[i].ingredientId).Some?
    requires StockOf(w, req.ingredients[i].ingredientId).value < req.ingredients[i].quantity
    requires market(i) == Market.Answered(Some(sold)) && sold > 0
    ensures var r := Reserve(w, req, market);
      && r.reply == Success(200, false)
      && r.outbox == [OrderUpdate(req, "WAITING_FOR_INGREDIENTS")]
      && StockOf(r.store, req.ingredients[i].ingredientId) == Some(StockOf(w, req.ingredients[i].ingredientId).value + sold)
  {
    var lines := req.ingredients;
    assert forall m :: 0 <= m < |lines| && m != i ==> lines[m].ingredientId != lines[i].ingredientId by {
      forall m | 0 <= m < |lines| && m != i
        ensures lines[m].ingredientId != lines[i].ingredientId
      {
        if m < i {} else {}
      }
    }
    ScanShortLine(Start(w), lines, 0, i, market, StockOf(w, lines[i].ingredientId).value, sold);
  }

  /** Stock can go negative, first way: the same ingredient requested twice
      is checked twice against the same undiminished stock, then
      decremented twice. */
  lemma {:induction false} RepeatedLineOverdraws(w: Warehouse, k: int, n: int, market: nat -> MarketReply)
    requires StockOf(w, k).Some? && n <= StockOf(w, k).value < 2 * n
    ensures var req := Dto.IngredientsRequest(1, 1, [Line(k, n), Line(k, n)]);
      var r := Reserve(w, req, market);
      r.reply == Success(200, true) && StockOf(r.store, k).Some? && StockOf(r.store, k).value < 0
  {
    var req := Dto.IngredientsRequest(1, 1, [Line(k, n), Line(k, n)]);
    AllInStock(w, req, market);
    assert Requested(req.ingredients, k) == 2 * n by {
      var rest := [Line(k, n)];
      assert req.ingredients[1..] == rest;
      assert rest[1..] == [];
      assert Requested(rest, k) == n + Requested([], k);
    }
  }

  /** Stock can go negative, second way: a short ingredient for which the
      market sells nothing adds no summary entry, so it does not stop
      `allAvailable`, and its stock is then decremented below zero. */
  lemma {:induction false} UnboughtShortageOverdraws(w: Warehouse, k: int, n: int, market: nat -> MarketReply)
    requires StockOf(w, k).Some? && StockOf(w, k).value < n
    requires market(0).CallFailed? || market(0).quantitySold.None? || market(0).quantitySold.value <= 0
    ensures var req := Dto.IngredientsRequest(1, 1, [Line(k, n)]);
      var r := Reserve(w, req, market);
      && r.reply == Success(200, true)
      && r.outbox == [OrderUpdate(req, "DELIVERED_INGREDIENTS")]
      && r.queries == [Lower(w.ingredients[k].name)]
      && StockOf(r.store, k) == Some(StockOf(w, k).value - n)
  {
    var req := Dto.IngredientsRequest(1, 1, [Line(k, n)]);
    var st := Start(w);
    ClassifyCases(st, req.ingredients[0], market(0));
    var next := Classify(st, req.ingredients[0], market(0));
    assert ScanFrom(st, req.ingredients, 0, market) == ScanFrom(next, req.ingredients, 1, market);
    assert Requested(req.ingredients, k) == n by {
      assert req.ingredients[1..] == [];
    }
  }
}

=== FILE: warehouse_controller.dfy ===
/** The warehouse consumer: the routing-key table, dispatch and
    acknowledgement, the validation gate and the self-requeue of
    reservation requests that could not be served yet. */
module WarehouseController {
  import opened Base
  import opened Broker
  import opened Dto
  import opened WarehouseData
  import opened Market
  import opened WarehouseService

  datatype Route = ListIngredients | IngredientById | RequestIngredients | MarketHistory

  /** `initializeHandlers`: five keys, two of them for the same handler. */
  const Handlers: map<string, Route> := map[
    "warehouse.get.ingredients" := ListIngredients,
    "warehouse.get.ingredient.byId" := IngredientById,
    "warehouse.ingredients.request" := RequestIngredients,
    "warehouse.retry.ingredients" := RequestIngredients,
    "warehouse.get.market-history" := MarketHistory]

  /** The keys `warehouse_queue` is bound under on `warehouse_exchange`. */
  const Bindings: seq<string> := [
    "warehouse.get.ingredients",
    "warehouse.get.ingredient.byId",
    "warehouse.ingredients.request",
    "warehouse.retry.ingredients",
    "warehouse.get.market-history"]

  /** `setupRetryQueue` */
  const Retry: RetryQueue := RetryQueue(
    "warehouse_retry_queue", "warehouse_retry_exchange", "warehouse.retry.ingredients",
    "warehouse_exchange", "warehouse.retry.ingredients", 10000)

  /** The data of the warehouse's replies. */
  datatype Data =
    | IngredientList(items: set<Ingredient>)
    | OneIngredient(ingredient: IngredientRef)
    | Availability(allAvailable: bool)
    | History(page: HistoryPage)

  /** The republish of a request that could not be served yet. */
  function RetryEnvelope(req: IngredientsRequest): Envelope {
    Envelope(Retry.exchange, Retry.bindingKey, IngredientsRequestJson(Num(req.orderId), req.recipeId, req.ingredients))
  }

  /** `handleIngredientsRequest` */
  function HandleIngredientsRequest(w: Warehouse, payload: Json, market: nat -> MarketReply): Handled<Warehouse, Data> {
    match ValidateIngredientsRequest(payload)
    case Threw => Handled(w, None, [], [], 0, true)
    case Checked(data, errors) =>
      if |errors| > 0 then Returned(w, Some(Invalid(errors)), [])
      else if data.None? then Returned(w, Some(Invalid(["Invalid data"])), [])
      else
        var res := Reserve(w, data.value, market);
        var retry := if res.reply.Success? && !res.reply.data then [RetryEnvelope(data.value)] else [];
        Returned(res.store, Some(MapReply(res.reply, b => Availability(b))), res.outbox + retry)
  }

  /** `handleGetIngredientById`. A falsy body returns at once; a falsy id
      acknowledges the delivery inside the handler, and the consume loop
      acknowledges it a second time. An id the database cannot take
      (not an integer) makes the query throw, which the service answers
      with 400. */
  function HandleIngredientById(w: Warehouse, payload: Json): Handled<Warehouse, Data> {
    var id := Field(payload, "id");
    if !Truthy(Some(payload)) then Returned(w, None, [])
    else if !Truthy(id) then Handled(w, None, [], [], 1, false)
    else if IsWhole(id) then Returned(w, Some(MapReply(GetIngredientById(w, WholeValue(id)), i => OneIngredient(i))), [])
    else Returned(w, Some(Failure(400)), [])
  }

  /** An optional pagination field: absent or null, or a whole number. */
  predicate PageFieldOk(v: Option<Json>) {
    v.None? || v.value == JNull || IsWhole(v)
  }

  function PageField(v: Option<Json>): Option<int>
    requires PageFieldOk(v)
  {
    if v.None? || v.value == JNull then None else Some(WholeValue(v))
  }

  /** `handleGetMarketHistory`: the body is checked as optional integer
      `page` and `limit` fields before the service runs. */
  function HandleMarketHistory(w: Warehouse, payload: Json): Handled<Warehouse, Data> {
    if payload == JNull then Handled(w, None, [], [], 0, true)
    else if !payload.JObj? then Returned(w, Some(Invalid(["an unknown value was passed to the validate function"])), [])
    else
      var page := Field(payload, "page");
      var limit := Field(payload, "limit");
      var errors := Check(PageFieldOk(page), "page") + Check(PageFieldOk(limit), "limit");
      if |errors| > 0 then Returned(w, Some(Invalid(errors)), [])
      else Returned(w, Some(MapReply(GetMarketHistory(w, PageField(page), PageField(limit)), p => History(p))), [])
  }

  function Handle(route: Route, w: Warehouse, payload: Json, market: nat -> MarketReply): Handled<Warehouse, Data> {
    match route
    case ListIngredients => Returned(w, Some(MapReply(GetIngredients(w), s => IngredientList(s))), [])
    case IngredientById => HandleIngredientById(w, payload)
    case RequestIngredients => HandleIngredientsRequest(w, payload, market)
    case MarketHistory => HandleMarketHistory(w, payload)
  }

  /** `consumeMessages`: look the routing key up, run its handler, ack. */
  function Consume(w: Warehouse, d: Delivery, market: nat -> MarketReply): Outcome<Warehouse, Data> {
    Settle(d.props, w,
      if d.routingKey in Handlers then Some(Handle(Handlers[d.routingKey], w, d.payload, market)) else None)
  }

  /** The table has five keys; the first request and its retry share one
      handler; the queue is bound under exactly the table's keys. */
  lemma HandlerTable()
    ensures |Handlers| == 5
    ensures Handlers["warehouse.ingredients.request"] == Handlers["warehouse.retry.ingredients"] == RequestIngredients
    ensures forall k :: k in Bindings <==> k in Handlers
  {
    assert Handlers.Keys == {
      "warehouse.get.ingredients", "warehouse.get.ingredient.byId", "warehouse.ingredients.request",
      "warehouse.retry.ingredients", "warehouse.get.market-history"};
  }

  /** A delivery under a key with no handler changes nothing, sends
      nothing, and is acknowledged once. */
  lemma UnregisteredKeyAcked(w: Warehouse, d: Delivery, market: nat -> MarketReply)
    requires d.routingKey !in Handlers
    ensures Consume(w, d, market) == Outcome(w, None, [], [], [], 1)
  {
  }

  /** A reservation body that fails validation is answered with the
      failures; the service is not run, nothing is published, and the
      store is unchanged. */
  lemma ValidationGate(w: Warehouse, d: Delivery, market: nat -> MarketReply)
    requires d.routingKey in Handlers && Handlers[d.routingKey] == RequestIngredients
    requires ValidateIngredientsRequest(d.payload).Checked?
    requires |ValidateIngredientsRequest(d.payload).errors| > 0
    ensures var o := Consume(w, d, market);
      && o.responded == Some(Invalid(ValidateIngredientsRequest(d.payload).errors))
      && o.store == w && o.outbox == [] && o.acks == 1
  {
  }

  /** After the service ran, a reply is always sent; the request is put on
      the retry exchange exactly when the service succeeded with
      `data == false`, after the WAITING_FOR_INGREDIENTS update. */
  lemma {:induction false} RetryRule(w: Warehouse, d: Delivery, market: nat -> MarketReply)
    requires d.routingKey in Handlers && Handlers[d.routingKey] == RequestIngredients
    requires ValidateIngredientsRequest(d.payload).Checked?
    requires ValidateIngredientsRequest(d.payload).data.Some?
    ensures var req := ValidateIngredientsRequest(d.payload).data.value;
      var res := Reserve(w, req, market);
      var o := Consume(w, d, market);
      && o.responded.Some? && o.acks == 1
      && o.responded.value.Success? == res.reply.Success?
      && o.store == res.store
      && (res.reply == Success(200, false) ==>
            o.outbox == [OrderUpdate(req, "WAITING_FOR_INGREDIENTS"), RetryEnvelope(req)])
      && (res.reply == Success(200, true) ==> o.outbox == [OrderUpdate(req, "DELIVERED_INGREDIENTS")])
      && (!res.reply.Success? ==> o.outbox == [])
  {
    var req := ValidateIngredientsRequest(d.payload).data.value;
    RequestReply(w, req, market);
    if Reserve(w, req, market).reply.Success? {
      RequestPublishes(w, req, market);
    }
  }

  /** A request republished for retry waits 10 s in the retry queue and
      comes back to `warehouse_exchange` under a key the queue is bound to
      and the same handler serves, with a body that validates to the very
      same request. */
  lemma {:induction false} RetryReentersSameHandler(payload: Json)
    requires ValidateIngredientsRequest(payload).Checked?
    requires ValidateIngredientsRequest(payload).data.Some?
    ensures var req := ValidateIngredientsRequest(payload).data.value;
      var back := Expire(Retry, RetryEnvelope(req));
      && Retry.ttlMs == 10000
      && back.Some?
      && back.value.exchange == "warehouse_exchange"
      && back.value.routingKey in Bindings
      && Handlers[back.value.routingKey] == RequestIngredients
      && ValidateIngredientsRequest(back.value.body) == Checked(Some(req), [])
  {
    var req := ValidateIngredientsRequest(payload).data.value;
    var items := Field(payload, "ingredients").value.items;
    forall i | 0 <= i < |req.ingredients|
      ensures req.ingredients[i].quantity >= 1
    {
      assert req.ingredients[i] == LineOf(items[i]);
    }
    IngredientsRequestRoundTrip(req.orderId, req.recipeId, req.ingredients);
    HandlerTable();
  }

  /** A get-by-id body without a truthy id gets no reply, and its delivery
      is acknowledged twice: once by the handler and once by the consume
      loop. A falsy body gets no reply and a single acknowledgement. */
  lemma MissingIdNotAnswered(w: Warehouse, d: Delivery, market: nat -> MarketReply)
    requires d.routingKey == "warehouse.get.ingredient.byId"
    requires !Truthy(Field(d.payload, "id"))
    ensures var o := Consume(w, d, market);
      && o.responded.None? && o.sent == [] && o.outbox == [] && o.store == w
      && o.acks == if Truthy(Some(d.payload)) then 2 else 1
  {
  }
}
